=== FILE: README.md ===
# RTP/JPEG still-image streamer: parser, frame source and pacing

The streamer in `live555/jpeg_stream.cpp` reads one baseline JPEG file,
parses its header once, and then sends the same image again and again as
RTP/JPEG (RFC 2435) frames through the live555 library. This project
models the logic of that file as pure Dafny functions over byte sequences
and proves properties of them. It covers:

- **The header parser** (`jpeg_frame_parser`). It walks the ITU-T T.81
  markers of the buffer. It collects the fields RFC 2435 needs: width and
  height in 8-pixel blocks, the type (0 for 4:2:0, 1 for 4:2:2, plus 64 when
  restart markers are on), the quantization tables and the restart
  interval. It also locates the entropy-coded scan data.
  - Modules `JpegMarker`, `JpegState`, `JpegSof`, `JpegDqt`, `JpegDri`
    and `JpegParse` follow the source's functions one by one.
  - `JpegLayout` describes a class of header layouts that `parse`
    accepts: complete segments in any order, one accepted frame header, at
    least one table segment, then a scan header. The class is sufficient,
    not necessary; `parse` also accepts some buffers outside it. For each
    layout it proves what `parse` returns, including the table store, the
    table length and the restart interval.
  - `JpegExamples` builds concrete well-formed and malformed buffers and
    proves what `parse` makes of them.
- **The frame source** (`FrameSource`): the frame clock against the clip
  length, the copy of the scan data into the sink's buffer, buffer
  clearing, and construction.
- **The event-loop pacing** (`Pacing`): the sleep pattern inside a burst
  of scheduler steps, the stop flag, and the filter on library messages.
- **The send-buffer sizing in `main`** (`Driver`).

Bytes are integers in 0..255. The parser's C integer fields are bounded `int` subtypes.
Where the C code has undefined behaviour or an `assert` that input data
can trip, the model does not add a precondition. It returns
`Outcome.Unsafe(fault)`. Each fault is shown to be reachable, in the
place named below:

- `LengthFieldPastEnd`: a segment length read past the end of the buffer
  (`JpegExamples.LengthPastEndReachable`).
- `QTableOverflow`: a quantization table copied past the 256-byte store
  (`JpegExamples.TableOverflowReachable`, `JpegDqt.ReadDqtOverflowReachable`).
- `SecondFrameHeader`: the assert on a second baseline frame header
  (`JpegExamples.SecondFrameHeaderReachable`).
- `ScanPastEnd`: an unsigned scan length that would wrap around because the scan header's
  declared length runs past the buffer (`JpegExamples.ScanPastEndReachable`).
- `EmptyImage`: the constructor's first assert. The contract of
  `FrameSource.CreateSource` gives it for exactly the empty image.
- `ImageRejected`: the constructor's second assert
  (`FrameSource.RejectedImageReachable`).
- `PacingDivisionByZero`: the modulo by zero when the send buffer holds
  less than one payload. The contract of `Pacing.EventLoop` gives it
  exactly when a round that runs a burst has such a buffer.

Points where the model follows the code rather than what its structure
suggests:

- `createNew` (jpeg_stream.cpp:240-252) returns no source only when the
  constructor throws. A parse failure does not throw: the constructor
  asserts at line 269 that the parse succeeded. So `CreateSource` returns
  `Unsafe(ImageRejected)` for an image `parse` rejects, not an absent
  source.
- `precision` is reset by `parse` and never set anywhere else, so it is
  always 0.
- The frame size reported to the sink is the untruncated scan length,
  even when the copy was cut short at the buffer size.

## Model

| member | source | states |
|---|---|---|
| JpegMarker.ScanMarker | live555/jpeg_stream.cpp:475-490 | The new offset is strictly past the old one and at most the size. With no 0xFF before the last byte the result is EOI at the end of the buffer. Otherwise the result is the byte after the first 0xFF, the offset is just past it, and no 0xFF was skipped. |
| JpegMarker.ScanMarkerAtEnd | live555/jpeg_stream.cpp:478-481 | A 0xFF in the last byte is not a marker: the scan reports EOI at the end of the buffer. |
| JpegMarker.ScanMarkerCanEndAtSize | live555/jpeg_stream.cpp:478-488 | A real marker can end exactly at the end of the buffer, which leaves the offset at `size` for the unchecked length read that follows. |
| Bytes.Be16 | live555/jpeg_stream.cpp:492-495 | The first byte is the high byte of the value and the second its low byte. |
| Bytes.Be16OfEncoding | live555/jpeg_stream.cpp:492-495 | Reading two bytes big-endian inverts writing a 16-bit value, whatever surrounds it. |
| JpegState.NewParser | live555/jpeg_stream.cpp:406-420 | A new parser has zero dimensions, type, precision and restart interval. |
| JpegState.NewParserDefaults | live555/jpeg_stream.cpp:406-420 | A fresh parser has quality 255, no tables, no scan data and a table store filled with 8. |
| JpegState.ParserState.SetQ | live555/jpeg_stream.cpp:453-456 | Setting the quality changes the quality and nothing else. |
| JpegSof.ShiftPoint | live555/jpeg_stream.cpp:543-546 | The inner loop stops at index 1 or above. Every element it passed has an id at least the new one, and the element before the stop point (if not index 0) has a smaller id. |
| JpegSof.Insert | live555/jpeg_stream.cpp:543-548 | One insertion keeps the first element first and keeps the part after it sorted. |
| JpegSof.InsertPermutes | live555/jpeg_stream.cpp:543-548 | One insertion adds exactly the new element. |
| JpegSof.InsertionPass | live555/jpeg_stream.cpp:536-549 | The whole pass keeps the first-read component at index 0 and sorts the rest by ascending id. |
| JpegSof.InsertionPassPermutes | live555/jpeg_stream.cpp:536-549 | The pass is a permutation of the components read. |
| JpegSof.InsertionPassOfThree | live555/jpeg_stream.cpp:536-549 | For three components, the pass swaps the second and third exactly when the third id is not above the second. |
| JpegSof.ReadSof | live555/jpeg_stream.cpp:497-590 | Success holds iff the 17 bytes are present, the length is at least 17, the precision is 8, both dimensions are in 1..2040, there are 3 components, and the sampling bytes and shared table are as read (independent of ids). The offset moves by the declared length once the length check passes. Only width, height and type change. The dimensions are stored as pixels/8 even when a later check fails. On success the type is 0 or 1 according to the first sampling byte. |
| JpegSof.AcceptedBlocksFitByte | live555/jpeg_stream.cpp:527-531 | For an accepted header, pixel width/8 and height/8 are at most 255, so storing them in the `uint8_t` fields truncates nothing. The stored block counts are the pixel dimensions rounded down to whole 8-pixel blocks. |
| JpegDqt.TableId | live555/jpeg_stream.cpp:618 | The table id is the low nibble, below 16. |
| JpegDqt.TableSize | live555/jpeg_stream.cpp:622-629 | A table is 128 bytes iff the precision nibble is non-zero, else 64. |
| JpegDqt.CopyTable | live555/jpeg_stream.cpp:636 | The copy puts the table at its slot and leaves every other store byte alone. |
| JpegDqt.DqtEntries | live555/jpeg_stream.cpp:613-644 | The loop faults iff some table it reaches has a slot that does not fit the store. `offset + quant_size` is invariant. The loop stops at the end of the bytes, at id 15, or at a table too short for its size; after a short table the length is twice that table's size. Only the tables and their length change, and the length ends as before, 128 or 256. An overflow fault names an id below 15 and a 64- or 128-byte table whose slot does not fit. |
| JpegDqt.EntriesFitEach | live555/jpeg_stream.cpp:613-644 | The loop reaches only fitting slots iff every entry of the chain it walks (the tables it copies, in order) has a fitting slot. |
| JpegDqt.DqtEntriesCopies | live555/jpeg_stream.cpp:613-644 | Without a fault, the loop copies the chain's tables in turn, each to slot `id * size`. A store byte that no table covers keeps its value. A covered byte holds the matching byte of the last table in the chain that covers it. |
| JpegDqt.DqtEntriesStop | live555/jpeg_stream.cpp:613-644 | Without a fault, the loop stops where the chain of entries ends. |
| JpegDqt.ChainEndIsEntriesEnd | live555/jpeg_stream.cpp:638-643 | The chain ends right after the last table copied, or where it began if none was copied. |
| JpegDqt.DqtEntriesLength | live555/jpeg_stream.cpp:622-629 | Without a fault, the reported length is twice the size of the last table whose precision nibble the loop read, or unchanged if it read none. |
| JpegDqt.ReadDqt | live555/jpeg_stream.cpp:592-662 | Resumes at `size` when the length field is missing or below 2, with nothing changed; otherwise at the declared end clamped to `size`. Only the tables and their length change. The only fault is an overflow of a slot that does not fit. |
| JpegDqt.ReadDqtRunsEntries | live555/jpeg_stream.cpp:598-612 | With a length field of at least 2, `read_dqt` runs the entry loop over the segment body clamped to the buffer, and resumes where the loop's bytes end. |
| JpegDqt.ReadDqtFaultIff | live555/jpeg_stream.cpp:598-636 | With a length field of at least 2, `read_dqt` faults iff some table its loop reaches has a slot that does not fit the store. |
| JpegDqt.ReadDqtCopies | live555/jpeg_stream.cpp:592-662 | When every slot fits, `read_dqt` succeeds. It copies the segment's tables in order, a later table overwriting an earlier one, and leaves every uncovered store byte alone. The length is set by the last table examined. |
| JpegDqt.ReadDqtOneTable | live555/jpeg_stream.cpp:613-644 | A segment holding one table whose slot fits copies it to slot `id * size`, leaves all other bytes alone, sets the length to twice the size and resumes after it. |
| JpegDqt.ReadDqtTwoTables | live555/jpeg_stream.cpp:613-644 | A segment of length 0x84 with 8-bit tables 0 and 1 copies them to store bytes 0-63 and 64-127. It leaves bytes 128-255 alone, sets the length to 128 and resumes after the segment. |
| JpegDqt.ReadDqtShortTable | live555/jpeg_stream.cpp:622-633 | A segment too short for its announced table copies nothing. The table length still becomes twice that table's size, and reading resumes at the declared end. |
| JpegDqt.ReadDqtInvalidId | live555/jpeg_stream.cpp:618-620 | Table id 15 ends the segment with nothing copied and the length kept. |
| JpegDqt.ReadDqtOverflowReachable | live555/jpeg_stream.cpp:618-636 | An 8-bit table with id 4 is copied past the 256-byte store. |
| JpegDri.ReadDri | live555/jpeg_stream.cpp:664-694 | Success holds iff 4 bytes are present, the length is at least 4 and the interval is non-zero. A short segment leaves the offset and state alone. Otherwise the offset moves by the declared length, and the interval is stored (even 0) iff the length is at least 4. |
| JpegParse.ResetForParse | live555/jpeg_stream.cpp:698-705 | `parse` clears the dimensions, type, precision, interval and scan view, and keeps the quality, the table store and the table length. |
| JpegParse.OnFrameHeaderCases | live555/jpeg_stream.cpp:721-727 | The frame header case faults iff a frame header was already found. Otherwise the walk takes the reader's state and resume offset, and it has found a frame header iff the reader accepted it; a rejected one ends the walk. |
| JpegParse.OnQuantizationTablesCases | live555/jpeg_stream.cpp:728-731 | The table case faults iff `read_dqt` faults, and otherwise takes its state and resume offset. |
| JpegParse.OnRestartInterval | live555/jpeg_stream.cpp:743-748 | The restart flag is set iff it was set already or this segment enables restarts. |
| JpegParse.OnScanHeader | live555/jpeg_stream.cpp:732-735 | The header size is the marker end plus the declared length. The length read faults iff it lies past the buffer. |
| JpegParse.Step | live555/jpeg_stream.cpp:714-753 | Each iteration moves forward and keeps the walk invariant: the found flags only hold for markers present in the buffer, and quality and tables change only through a table segment. Its only faults are the unchecked length reads, a table overflow and a second frame header. |
| JpegParse.ParseLoop | live555/jpeg_stream.cpp:714-753 | The loop ends at a rejected frame header, at the scan header or at the end of the buffer, keeping the walk invariant. |
| JpegParse.Parse | live555/jpeg_stream.cpp:696-781 | On success the scan view and header partition the buffer, and the dimensions and type come from an accepted frame header in the data. A table segment is present, the restart flag implies a restart segment with a non-zero interval, and a non-zero header size ends a scan header. On failure there is no scan data. Precision is always 0, quality is kept, the interval is 0 or read from a restart segment, and the tables change only if a table segment exists. `JpegLayout.LayoutParses` and `JpegLayout.LayoutParsesStore` state the converse, field by field, for a class of well-formed header layouts. |
| JpegParse.WalkAccepted | live555/jpeg_stream.cpp:754-772 | A walk that found a frame header with non-zero block counts and tables, and whose header ends inside the buffer, yields a state that meets every success guarantee of `parse`. |
| JpegLayout.LoopAdvances | live555/jpeg_stream.cpp:714-753 | An iteration that neither faults nor rejects a frame header hands the walk on to the next one. |
| JpegLayout.ScanFinds | live555/jpeg_stream.cpp:475-490 | From any offset with no 0xFF before a marker, the scan finds that marker and stops just past it. |
| JpegLayout.StepSegment | live555/jpeg_stream.cpp:714-753 | One iteration over a complete segment faults on nothing. It resumes where the segment's kind says and sets the found flags for what the segment is. Only a frame header changes the dimensions and type. |
| JpegLayout.WalkAdvances | live555/jpeg_stream.cpp:714-753 | The iteration over segment `k` leaves the walk at segment `k + 1`, with the flags recording exactly the segments before it. |
| JpegLayout.StepResumes | live555/jpeg_stream.cpp:714-753 | The iteration over segment `k` resumes after it, and has seen the frame header exactly once it has passed the frame header's index. |
| JpegLayout.StepKeepsFrame | live555/jpeg_stream.cpp:721-727 | Once the frame header has been passed, its dimensions and type stay stored through later segments. |
| JpegLayout.StepRecordsFlags | live555/jpeg_stream.cpp:728-748 | After segment `k` the table flag records whether a table segment came up to `k`, and the restart flag whether a restart segment with a non-zero interval did. |
| JpegLayout.LayoutWalk | live555/jpeg_stream.cpp:714-753 | From any segment of a layout, the walk passes the remaining segments and stops at the scan header. The frame header's fields are stored and tables were seen. The restart flag is set iff some restart segment has a non-zero interval. |
| JpegLayout.LayoutParses | live555/jpeg_stream.cpp:696-781 | `parse` accepts every buffer of complete segments in any order with exactly one accepted frame header (at least 8 pixels each way), at least one table segment whose slots fit, and a scan header whose segment ends inside the buffer. This holds whatever the prior state. The dimensions are the header's over 8. The type is its sampling type plus 64 iff some restart segment has a non-zero interval. The scan data is everything after the scan header, and quality is kept. |
| JpegLayout.StepSegmentStore | live555/jpeg_stream.cpp:728-748 | One complete segment copies its own table chain into the store in order and sets the length from the last id byte its loop examined. The interval is replaced iff it is a restart segment long enough to hold one. Otherwise the store, length and interval are unchanged. |
| JpegLayout.StepTablesStore | live555/jpeg_stream.cpp:728-731 | A table segment copies its chain into the store in order, sets the length from its loop, and leaves the interval alone. |
| JpegLayout.StepOtherStore | live555/jpeg_stream.cpp:714-753 | Any other complete segment leaves the store and the length alone. Only a restart segment of length at least 4 replaces the interval, even with 0. |
| JpegLayout.StoreExtends | live555/jpeg_stream.cpp:714-753 | The store, length and interval after segment `k` are those before it, followed by what segment `k` does. |
| JpegLayout.StoreAdvances | live555/jpeg_stream.cpp:714-753 | The iteration over segment `k` keeps the store, length and interval in step with the segments up to `k`. |
| JpegLayout.LayoutStore | live555/jpeg_stream.cpp:714-753 | From any segment of a layout, the walk ends with the store, length and interval that the segments before the scan header give. |
| JpegLayout.StoreAtStart | live555/jpeg_stream.cpp:698-705 | Before any segment, the reset state holds the store and length it started with, and no interval. |
| JpegLayout.ParseKeepsStore | live555/jpeg_stream.cpp:754-772 | `parse` takes the store, length and interval from its walk unchanged. |
| JpegLayout.LayoutParsesStore | live555/jpeg_stream.cpp:696-781 | On every such layout `parse` succeeds. A store byte that no table of the layout's table segments covers keeps its prior value. A covered byte holds the matching byte of the last table that covers it. The length is twice the size announced by the last id byte a table loop examined, or the prior length if none. The interval is that of the last restart segment of length at least 4 before the scan header, or 0. |
| JpegDqt.CopiedInOrderAppend | live555/jpeg_stream.cpp:613-644 | Two chains copied one after the other are copied in order as one chain: where slots overlap, the later chain's table wins. |
| JpegExamples.HeaderBufferIsLayout | live555/jpeg_stream.cpp:714-753 | The four-segment example header is such a layout. Its restart segment enables restart markers iff the interval is non-zero. |
| JpegExamples.HeaderSegmentsLayout | live555/jpeg_stream.cpp:714-753 | A frame header at 0, a table segment at 19 and a restart segment at 88 that follow each other without gaps, then a scan header at 94, form a layout. It has restarts iff the restart segment enables them. |
| JpegExamples.NoScanHeaderParses | live555/jpeg_stream.cpp:712-772 | A buffer with only a frame header and a table segment, and no scan header, still parses. The header size stays 0, so the whole 88-byte buffer becomes the scan data. |
| JpegParse.ParseFaults | live555/jpeg_stream.cpp:714-764 | The only faults are those of the walk, and a scan header whose declared end lies past the buffer. |
| JpegParse.NoFrameHeaderNoImage | live555/jpeg_stream.cpp:754-757 | Without a 0xC0 byte, parse fails. |
| JpegParse.NoTablesNoImage | live555/jpeg_stream.cpp:754-757 | Without a 0xDB byte, parse fails and the tables are unchanged. |
| JpegParse.NoRestartSegmentNoInterval | live555/jpeg_stream.cpp:766-768 | Without a 0xDD byte, the interval is 0 and the type has no restart flag. |
| JpegParse.NoScanHeaderWholeBuffer | live555/jpeg_stream.cpp:712 | Without a 0xDA byte, a successful parse makes the whole buffer scan data. |
| JpegExamples.StepFrameHeader | live555/jpeg_stream.cpp:721-727 | A well-formed frame header segment sets the block dimensions and type and moves past the segment. |
| JpegExamples.StepTables | live555/jpeg_stream.cpp:728-731 | A segment with one 8-bit table puts it in its slot and moves past the segment. |
| JpegExamples.StepRestartInterval | live555/jpeg_stream.cpp:743-748 | A restart segment stores its interval and sets the restart flag iff the interval is non-zero. |
| JpegExamples.StepScanMarker | live555/jpeg_stream.cpp:732-735 | A scan header marker ends the walk with the header size its length field declares. |
| JpegExamples.WellFormedHeaderParses | live555/jpeg_stream.cpp:696-781 | A frame header, a table, a restart segment and a scan header parse successfully for any scan bytes. The dimensions are pixels/8, the type is 0 or 1 plus 64 for a non-zero interval, the table is in its slot, and the scan starts after the 98 header bytes. |
| JpegExamples.LengthPastEndReachable | live555/jpeg_stream.cpp:716-719 | A JFIF marker in the last two bytes makes the length read run past the buffer. |
| JpegExamples.SecondFrameHeaderReachable | live555/jpeg_stream.cpp:721-722 | A second baseline frame header after an accepted one trips the assert. |
| JpegExamples.TableOverflowReachable | live555/jpeg_stream.cpp:728-731 | A table segment with id 4 overflows the store during parse. |
| JpegExamples.ScanPastEndReachable | live555/jpeg_stream.cpp:763-764 | A scan header whose length runs past the buffer makes the unsigned scan length wrap around. |
| FrameSource.Expired | live555/jpeg_stream.cpp:293 | With a positive period, the clock has expired iff the frames delivered reach `ceil(length / period)`. With a zero period it has expired iff the length is 0. |
| FrameSource.Tick | live555/jpeg_stream.cpp:293-309 | The source closes iff frames times period reach the length. Otherwise the counter moves on by exactly one and nothing else changes. |
| FrameSource.FramesLeft | live555/jpeg_stream.cpp:293-309 | No frame is left exactly when the clock has expired. |
| FrameSource.FramesLeftIsBudget | live555/jpeg_stream.cpp:293-309 | With a positive period, a clock delivers exactly the rest of `ceil(length / period)` frames before closing. |
| FrameSource.FreshSourceFrameCount | live555/jpeg_stream.cpp:293-309 | A fresh source emits exactly `ceil(length / period)` frames. |
| FrameSource.CreateSource | live555/jpeg_stream.cpp:251-274 | A source is created iff the image is non-empty and `parse` returns 0. It then holds exactly the parsed state, with the clock at 0. An empty image is exactly the empty-file fault, and a non-empty image that `parse` rejects is exactly the rejected-image fault. |
| FrameSource.RejectedImageReachable | live555/jpeg_stream.cpp:269-270 | A one-byte image without markers is rejected by `parse`, so the constructor's second assert fails. |
| FrameSource.ScanView | live555/jpeg_stream.cpp:469-473 | The scan view is the tail of the image of the parser's scan length. |
| FrameSource.CopyScan | live555/jpeg_stream.cpp:315-324 | The first `min(scan, fMaxSize)` bytes are the scan data, the rest of the buffer is unchanged, and the frame size is the untruncated scan length. |
| FrameSource.ClearBuffer | live555/jpeg_stream.cpp:281-284 | All `fMaxSize` bytes become 0. |
| FrameSource.FrameDuration | live555/jpeg_stream.cpp:303 | The duration is the unique value below 2^32 congruent to the period modulo 2^32. A period below 2^32 is kept as is. |
| FrameSource.GetNextFrame | live555/jpeg_stream.cpp:291-313 | It closes iff the clock expired, and then nothing changes. Otherwise the frame starts with the scan data and the rest of the buffer is unchanged. The size is the scan length, the duration is the period cast to 32 bits, and the counter moves on by one. |
| Pacing.Burst | live555/jpeg_stream.cpp:834-843 | A burst is empty iff it has no steps, and it starts with a step. |
| Pacing.EventLoopCons | live555/jpeg_stream.cpp:818-845 | A round that runs a burst puts that burst in front of what the later rounds do. |
| Pacing.BurstCounts | live555/jpeg_stream.cpp:834-843 | A burst of n steps with `M > 0` takes n steps and n - n/M sleeps. |
| Pacing.BurstLastAction | live555/jpeg_stream.cpp:838-839 | The last step of a burst of k steps is followed by a sleep iff k is not a multiple of M. |
| Pacing.BurstPrefix | live555/jpeg_stream.cpp:834-843 | For 1 <= k <= n, the burst of k steps is a prefix of the burst of n steps. |
| Pacing.BurstStepAction | live555/jpeg_stream.cpp:834-843 | Inside a burst of n steps, the k-th step is followed by a sleep iff k is not a multiple of M. |
| Pacing.EventLoop | live555/jpeg_stream.cpp:818-845 | The loop faults iff a round that runs a burst has a send buffer below one payload, and the fault names that buffer. |
| Pacing.StopEndsLoop | live555/jpeg_stream.cpp:820-822 | The flag is checked only before each burst. Once a round sees it, later rounds do not matter. The steps and sleeps are the per-round sums, with the counter restarting at 1 each round. |
| Pacing.ShouldPrint | live555/jpeg_stream.cpp:856-862 | Only non-empty messages are printed, and every non-empty message that does not start with 'l' is. |
| Pacing.ShouldPrintIff | live555/jpeg_stream.cpp:856-862 | A message is printed iff it is non-empty and does not start with "liveMedia". |
| Driver.SendBufferSize | live555/jpeg_stream.cpp:178-185 | The size is at least 51200 and is either the floor or the wrapped `bitrate * 25 / 2`. It is the wrapped value whenever that reaches the floor. |
| Driver.DefaultIsFloor | live555/jpeg_stream.cpp:178-185 | With no estimate, 500 kbit/s gives 6250, so the size is the 51200 floor. |
| Driver.SizeWithoutWrap | live555/jpeg_stream.cpp:178-185 | Without wrap-around the size is `max(bitrate * 25 / 2, 51200)`, and the floor applies exactly up to 4096 kbit/s. |
| Driver.WrapFallsToFloor | live555/jpeg_stream.cpp:182 | The 32-bit product wraps: an estimate of 171798692 yields 2 bytes, so the size falls back to the floor. |

## Left out

- File reading (`read_file`, `fs::file_size`, `fopen`, `fread`): I/O. The image bytes are an input.
- Timestamps (`gettimeofday`), logging, `handleClosure`, `afterGetting` and `scheduleDelayedTask`: OS and library calls. Closure and delivery are results of `GetNextFrame`.
- `BasicTaskScheduler::SingleStep`, the delay queue and `sleep_for`: scheduler internals. Each step is an abstract `Step` action. The number of steps in a burst and the `getsockopt` value are inputs.
- Session setup in `main` (groupsocks, RTCP, RTSP server, `increaseSendBufferTo`), `play`/`after_playing`, the signal handler and `gethostname`: network plumbing with no logic of its own.
- Accessors of the parser and the source (`width()`, `type()`, `quantizationTables()` and so on): they return fields of `ParserState` directly.
- JpegParse.Parse: requires a buffer of at most 2^32 - 2^16 - 1 bytes, so that no 32-bit offset sum can wrap. Larger buffers, where `(unsigned)_jpeg_datalen` truncates and offsets wrap, are not modelled.
- JpegLayout.LayoutParses: success is shown for layouts that end with a scan header, whose segments are complete and are separated only by bytes without 0xFF. Buffers with no scan header are not covered; `parse` accepts some of them and makes the whole buffer scan data (`JpegParse.NoScanHeaderWholeBuffer`, `JpegExamples.NoScanHeaderParses`). Neither are walks that land inside a segment's body, nor table segments whose declared length runs past the buffer.
- JpegDqt.DqtEntries: leaves out the loop's `offset + 1 > size` test, which cannot succeed while `offset + quant_size` stays within the buffer.
- FrameSource.FramesLeft: requires a positive frame period. With a zero period and a positive length the source never closes.
- FrameSource.Tick: durations are non-negative and unbounded. The product `_frame_count * _time_per_frame` is not wrapped, and negative `chrono` durations are not modelled.
- Pacing.EventLoop: the `unsigned` step counter is unbounded. Its wrap after 2^32 steps in one burst is not modelled.
- Pacing.ShouldPrintIff: messages are NUL-free strings, as `getResultMsg` delivers them. Printing itself is not modelled.
- live555/rtp_mp3_streamer.cpp, libsoup/websocket.cpp, boost/filesystem/load_file.cpp and sizes.cpp are not part of this model: they only delegate to libraries or do I/O.

=== FILE: arith.dfy ===
/** Facts about natural-number division that the solver does not find on
    its own. */
module Arith {
  lemma DivModUnique(k: nat, m: nat, q: nat, r: nat)
    requires m > 0 && r < m && k == q * m + r
    ensures k / m == q && k % m == r
  {
    var q': int, r': int := k / m, k % m;
    assert k == q' * m + r';
    var d: int := q - q';
    assert d * m == r' - r by {
      assert q * m - q' * m == (q - q') * m;
    }
    if d >= 1 {
      assert d * m >= 1 * m by { MulMonotone(1, d, m); }
    } else if d <= -1 {
      assert (-d) * m >= 1 * m by { MulMonotone(1, -d, m); }
    }
  }

  lemma MulMonotone(a: nat, b: nat, t: nat)
    requires a <= b
    ensures a * t <= b * t
  {
  }

  lemma QuotientAtMost(n: nat, m: nat)
    requires m > 0
    ensures n / m <= n
  {
    DivModUnique(n, m, n / m, n % m);
    if n / m > n {
      assert (n / m) * m >= (n + 1) * 1 by { MulMonotone(n + 1, n / m, m); MulMonotone(1, m, n + 1); }
    }
  }
}

=== FILE: bytes.dfy ===
/** Machine integers and the big-endian field reader of the JPEG parser. */
module Bytes {

  /** One byte of the image buffer. */
  type byte = x: int | 0 <= x < 0x100

  /** `uint8_t` / `unsigned char` fields of the parser: the same range as
      a buffer byte. */
  type uint8 = byte

  /** `unsigned short` fields and JPEG's 16-bit segment lengths. */
  type uint16 = x: int | 0 <= x < 0x1_0000

  /** The parser's offsets and sizes are 32-bit `unsigned`.  Every sum the
      parser forms is an offset no larger than the buffer plus at most one
      16-bit length, so buffers no longer than this never make it wrap. */
  const MaxBuffer: nat := 0xFFFF_FFFF - 0xFFFF

  /** The value of the two bytes at `at`, most significant first, as the
      source's `data[at] << 8 | data[at + 1]` computes it after promotion to
      `int` (jpeg_stream.cpp:492-495). */
  function Be16(data: seq<byte>, at: nat): (r: uint16)
    requires at + 2 <= |data|
    ensures Hi(r) == data[at] && Lo(r) == data[at + 1]
  {
    data[at] as int * 0x100 + data[at + 1] as int
  }

  /** The high and low byte a JPEG writer stores for the 16-bit value `v`. */
  function Hi(v: uint16): (b: byte) { v / 0x100 }
  function Lo(v: uint16): (b: byte) { v % 0x100 }

  function EncodeBe16(v: uint16): (r: seq<byte>)
    ensures |r| == 2
  {
    [Hi(v), Lo(v)]
  }

  /** Reading back what was written gives the value; it holds wherever the
      two bytes sit in a larger buffer. */
  lemma Be16OfEncoding(prefix: seq<byte>, v: uint16, suffix: seq<byte>)
    ensures Be16(prefix + EncodeBe16(v) + suffix, |prefix|) == v
  {
  }

  lemma Be16At(data: seq<byte>, at: nat, v: uint16)
    requires at + 2 <= |data| && data[at] == Hi(v) && data[at + 1] == Lo(v)
    ensures Be16(data, at) == v
  {
  }
}

=== FILE: driver.dfy ===
/** The send buffer sizing in `main` (jpeg_stream.cpp:178-185): the bit
    rate is the sink's estimate when it is positive and 500 kbit/s
    otherwise, the buffer holds a tenth of a second of it, and never less
    than 50 KiB.  All arithmetic is on 32-bit `unsigned`. */
module Driver {
  const DefaultBitrate: nat := 500
  const MinSendBuffer: nat := 50 * 1024
  const Word: nat := 0x1_0000_0000

  type uint32 = x: int | 0 <= x < 0x1_0000_0000

  /** The rate the buffer is sized for: never zero, and either the sink's
      estimate or the default. */
  function Bitrate(estimate: uint32): (b: uint32)
    ensures b > 0
    ensures b == estimate || b == DefaultBitrate
  {
    if estimate > 0 then estimate else DefaultBitrate
  }

  /** `bitrate * 25 / 2` with the product wrapping modulo 2^32. */
  function RawSize(bitrate: uint32): (s: uint32)
  {
    (bitrate * 25) % Word / 2
  }

  /** `rtp_buf_size` after the 50 KiB floor. */
  function SendBufferSize(estimate: uint32): (s: uint32)
    ensures s >= MinSendBuffer
    ensures s == MinSendBuffer || s == RawSize(Bitrate(estimate))
    ensures RawSize(Bitrate(estimate)) >= MinSendBuffer ==> s == RawSize(Bitrate(estimate))
  {
    var raw := RawSize(Bitrate(estimate));
    if raw < MinSendBuffer then MinSendBuffer else raw
  }

  /** Without an estimate the buffer is the 50 KiB floor: 500 kbit/s gives
      only 6250. */
  lemma DefaultIsFloor()
    ensures SendBufferSize(0) == MinSendBuffer
  {
  }

  /** Below the wrap-around point the size is `max(bitrate * 25 / 2, 51200)`,
      so the floor applies exactly to estimates up to 4096. */
  lemma SizeWithoutWrap(estimate: uint32)
    requires 0 < estimate && estimate * 25 < Word
    ensures SendBufferSize(estimate) == if estimate * 25 / 2 < MinSendBuffer then MinSendBuffer else estimate * 25 / 2
    ensures SendBufferSize(estimate) == MinSendBuffer <==> estimate <= 4096
  {
  }

  /** The product wraps for large estimates: 171798692 kbit/s gives a raw
      size of 2 bytes, so the buffer falls back to the floor. */
  lemma WrapFallsToFloor()
    ensures RawSize(171798692) == 2
    ensures SendBufferSize(171798692) == MinSendBuffer
  {
  }
}

=== FILE: frame_source.dfy ===
/** The frame source `jpeg_video_source_impl` (jpeg_stream.cpp:240-324):
    it parses one JPEG image once and then hands the same scan data to the
    RTP sink once per frame period until the clip length is used up. */
module FrameSource {
  import opened Bytes
  import opened Outcomes
  import opened JpegState
  import opened JpegParse
  import opened Arith

  /** The clip length in milliseconds, the frame period in microseconds and
      the number of frames delivered so far. */
  datatype Clock = Clock(lengthMs: nat, timePerFrameUs: nat, frameCount: nat)

  /** `_frame_count * _time_per_frame >= _length`: both durations are
      compared in microseconds. */
  function Expired(c: Clock): (r: bool)
    ensures c.timePerFrameUs > 0 ==> (r <==> c.frameCount >= FrameBudget(c.lengthMs, c.timePerFrameUs))
    ensures c.timePerFrameUs == 0 ==> (r <==> c.lengthMs == 0)
  {
    var reached := c.frameCount * c.timePerFrameUs >= c.lengthMs * 1000;
    if c.timePerFrameUs > 0 then
      ReachesIffAtLeastCeiling(c.frameCount, c.timePerFrameUs, c.lengthMs * 1000);
      reached
    else reached
  }

  /** The clock side of `doGetNextFrame`: `None` is `handleClosure`, otherwise
      a frame is delivered and the counter moves on by one. */
  function Tick(c: Clock): (r: Option<Clock>)
    ensures r.None? <==> Expired(c)
    ensures r.Some? ==> r.value.frameCount == c.frameCount + 1
    ensures r.Some? ==> r.value.(frameCount := c.frameCount) == c
  {
    if Expired(c) then None else Some(c.(frameCount := c.frameCount + 1))
  }

  /** The number of frames delivered before closure, counted by running
      `Tick` until it closes. */
  function FramesLeft(c: Clock): (n: nat)
    requires c.timePerFrameUs > 0
    ensures n == 0 <==> Expired(c)
    decreases c.lengthMs * 1000 - c.frameCount * c.timePerFrameUs
  {
    match Tick(c)
    case None => 0
    case Some(c1) => 1 + FramesLeft(c1)
  }

  /** `ceil(length / time_per_frame)` with both in microseconds. */
  function FrameBudget(lengthMs: nat, timePerFrameUs: nat): (n: nat)
    requires timePerFrameUs > 0
  {
    (lengthMs * 1000 + timePerFrameUs - 1) / timePerFrameUs
  }

  /** `k` frame periods reach `total` exactly when `k` is at least the
      rounded-up quotient. */
  lemma ReachesIffAtLeastCeiling(k: nat, t: nat, total: nat)
    requires t > 0
    ensures k * t >= total <==> k >= (total + t - 1) / t
  {
    var q := (total + t - 1) / t;
    var rem := (total + t - 1) % t;
    assert total + t - 1 == q * t + rem;
    if k >= q {
      assert k * t >= q * t by { MulMonotone(q, k, t); }
    } else {
      assert k + 1 <= q;
      assert (k + 1) * t <= q * t by { MulMonotone(k + 1, q, t); }
    }
  }

  /** A source whose clock has delivered `frameCount` frames delivers
      exactly the rest of the rounded-up budget before it closes. */
  lemma {:induction false} FramesLeftIsBudget(c: Clock)
    requires c.timePerFrameUs > 0
    ensures FramesLeft(c) == if c.frameCount >= FrameBudget(c.lengthMs, c.timePerFrameUs) then 0
                             else FrameBudget(c.lengthMs, c.timePerFrameUs) - c.frameCount
    decreases c.lengthMs * 1000 - c.frameCount * c.timePerFrameUs
  {
    ReachesIffAtLeastCeiling(c.frameCount, c.timePerFrameUs, c.lengthMs * 1000);
    if !Expired(c) {
      FramesLeftIsBudget(c.(frameCount := c.frameCount + 1));
    }
  }

  /** A fresh source emits exactly `ceil(length / time_per_frame)` frames. */
  lemma FreshSourceFrameCount(lengthMs: nat, timePerFrameUs: nat)
    requires timePerFrameUs > 0
    ensures FramesLeft(Clock(lengthMs, timePerFrameUs, 0)) == FrameBudget(lengthMs, timePerFrameUs)
  {
    FramesLeftIsBudget(Clock(lengthMs, timePerFrameUs, 0));
  }

  /** The image bytes, the parser that has parsed them and the clock. */
  datatype Source = Source(image: seq<byte>, parser: ParserState, clock: Clock)

  /** What construction guarantees: an accepted image of bounded size. */
  ghost predicate Valid(src: Source)
  {
    |src.image| <= MaxBuffer && Accepted(src.image, src.parser)
  }

  /** The constructor (jpeg_stream.cpp:251-274): the file content is given
      as `image`.  An empty file and a rejected image trip its asserts. */
  function CreateSource(image: seq<byte>, lengthMs: nat, timePerFrameUs: nat): (r: Outcome<Source>)
    requires |image| <= MaxBuffer
    ensures r.Ok? ==> Valid(r.value) && r.value.image == image
    ensures r.Ok? ==> r.value.clock == Clock(lengthMs, timePerFrameUs, 0)
    ensures r.Unsafe? && |image| > 0 ==> r.fault != EmptyImage
    ensures |image| == 0 <==> r == Unsafe(EmptyImage)
    ensures r.Ok? <==> |image| > 0 && Parse(NewParser(), image).Ok? && Parse(NewParser(), image).value.ok
    ensures r.Ok? ==> r.value.parser == Parse(NewParser(), image).value.st
    ensures r == Unsafe(ImageRejected) <==> |image| > 0 && Parse(NewParser(), image).Ok? && !Parse(NewParser(), image).value.ok
  {
    if |image| == 0 then Unsafe(EmptyImage)
    else
      ParseFaults(NewParser(), image);
      match Parse(NewParser(), image)
      case Unsafe(f) => Unsafe(f)
      case Ok(p) =>
        if !p.ok then Unsafe(ImageRejected)
        else Ok(Source(image, p.st, Clock(lengthMs, timePerFrameUs, 0)))
  }

  /** A one-byte file that holds no marker parses without a frame header,
      so the constructor's second assert fails. */
  lemma RejectedImageReachable()
    ensures CreateSource([0], 1000, 500000) == Unsafe(ImageRejected)
  {
  }

  /** `scandata(length)`: the view of the image the parser points at. */
  function ScanView(src: Source): (scan: seq<byte>)
    requires Valid(src)
    ensures |scan| == src.parser.scanLength
    ensures scan == src.image[|src.image| - src.parser.scanLength..]
  {
    var from := src.parser.scanData.value;
    src.image[from..from + src.parser.scanLength]
  }

  /** `jpeg_to_rtp`: copies `min(|scan|, fMaxSize)` bytes of the scan data
      to the front of the sink's buffer, whose length is `fMaxSize`, and
      reports the untruncated scan length as the frame size. */
  method CopyScan(scan: seq<byte>, buffer: seq<byte>) returns (out: seq<byte>, frameSize: nat)
    ensures |out| == |buffer|
    ensures forall i | 0 <= i < |out| && i < |scan| :: out[i] == scan[i]
    ensures forall i | |scan| <= i < |out| :: out[i] == buffer[i]
    ensures frameSize == |scan|
  {
    var n := if |scan| < |buffer| then |scan| else |buffer|;
    out := buffer;
    var i := 0;
    while i < n
      invariant 0 <= i <= n
      invariant |out| == |buffer|
      invariant forall j | 0 <= j < i :: out[j] == scan[j]
      invariant forall j | i <= j < |out| :: out[j] == buffer[j]
    {
      out := out[i := scan[i]];
      i := i + 1;
    }
    frameSize := |scan|;
  }

  /** `clear_buffer`: zeroes all `fMaxSize` bytes of the buffer. */
  method ClearBuffer(buffer: seq<byte>) returns (out: seq<byte>)
    ensures |out| == |buffer|
    ensures forall i | 0 <= i < |out| :: out[i] == 0
  {
    out := buffer;
    var i := 0;
    while i < |out|
      invariant 0 <= i <= |out| == |buffer|
      invariant forall j | 0 <= j < i :: out[j] == 0
    {
      out := out[i := 0];
      i := i + 1;
    }
  }

  /** What one call of `doGetNextFrame` does for the sink. */
  datatype Delivery =
    | Closed
    | Delivered(frame: seq<byte>, frameSize: nat, durationUs: nat)

  /** `static_cast<unsigned>(_time_per_frame.count())`. */
  function FrameDuration(timePerFrameUs: nat): (d: nat)
    ensures d < 0x1_0000_0000
    ensures (timePerFrameUs - d) % 0x1_0000_0000 == 0
    ensures timePerFrameUs < 0x1_0000_0000 ==> d == timePerFrameUs
  {
    timePerFrameUs % 0x1_0000_0000
  }

  /** `doGetNextFrame` with the sink's buffer `buffer`: once the clip length
      is used up the source closes and nothing changes; otherwise the scan
      data is copied, the frame size is the untruncated scan length and
      the frame counter moves on by one. */
  method GetNextFrame(src: Source, buffer: seq<byte>) returns (next: Source, d: Delivery)
    requires Valid(src)
    ensures Valid(next) && next.image == src.image && next.parser == src.parser
    ensures d.Closed? <==> Expired(src.clock)
    ensures d.Closed? ==> next == src
    ensures d.Delivered? ==> next.clock == src.clock.(frameCount := src.clock.frameCount + 1)
    ensures d.Delivered? ==> d.frameSize == src.parser.scanLength
    ensures d.Delivered? ==> d.durationUs == FrameDuration(src.clock.timePerFrameUs)
    ensures d.Delivered? ==> |d.frame| == |buffer|
    ensures d.Delivered? ==> forall i | 0 <= i < |buffer| && i < src.parser.scanLength ::
                               d.frame[i] == src.image[src.parser.scanData.value + i]
    ensures d.Delivered? ==> forall i | src.parser.scanLength <= i < |buffer| :: d.frame[i] == buffer[i]
  {
    match Tick(src.clock)
    case None =>
      next, d := src, Closed;
    case Some(c1) =>
      var scan := ScanView(src);
      var frame, size := CopyScan(scan, buffer);
      next := src.(clock := c1);
      d := Delivered(frame, size, FrameDuration(src.clock.timePerFrameUs));
  }
}

=== FILE: jpeg_dqt.dfy ===
/** The quantization table reader `read_dqt` (jpeg_stream.cpp:592-662),
    ITU-T T.81 section B.2.4.1. */
module JpegDqt {
  import opened Bytes
  import opened Outcomes
  import opened JpegState

  /** Table id: the low nibble of the id byte; 15 ends the segment. */
  function TableId(b: byte): (id: nat)
    ensures id < 16
  {
    b % 0x10
  }

  /** A non-zero precision nibble selects 16-bit entries, i.e. 128 bytes. */
  function TableSize(b: byte): (n: nat)
    ensures n == 64 || n == 128
    ensures n == 128 <==> b >= 0x10
  {
    if b / 0x10 != 0 then 128 else 64
  }

  /** The slot `id * size` the source copies table `id` to fits the store
      only for ids 0-3 of 64-byte tables and ids 0-1 of 128-byte tables. */
  predicate SlotFits(id: nat, size: nat)
  {
    id * size + size <= QStoreSize
  }

  /** `id * tab_size` for the table announced by id byte `b`, written per
      table size so that the solver sees only linear arithmetic. */
  function SlotStart(b: byte): (at: nat)
  {
    if TableSize(b) == 64 then TableId(b) * 64 else TableId(b) * 128
  }

  /** The table announced by `b` fits the store. */
  predicate Fits(b: byte)
  {
    SlotStart(b) + TableSize(b) <= QStoreSize
  }

  lemma SlotOfIdByte(b: byte)
    ensures SlotStart(b) == TableId(b) * TableSize(b)
    ensures Fits(b) <==> SlotFits(TableId(b), TableSize(b))
  {
  }

  /** `memcpy(&_q_tables[at], table, |table|)` on the store. */
  function CopyTable(store: QStore, at: nat, table: seq<byte>): (r: QStore)
    requires at + |table| <= QStoreSize
    ensures r[at..at + |table|] == table
    ensures forall i | at <= i < at + |table| :: r[i] == table[i - at]
    ensures forall i | 0 <= i < QStoreSize && !(at <= i < at + |table|) :: r[i] == store[i]
  {
    store[..at] + table + store[at + |table|..]
  }

  /** The table whose id byte is at `e` lies inside the buffer. */
  predicate TableInData(data: seq<byte>, e: nat)
  {
    e < |data| && e + 1 + TableSize(data[e]) <= |data|
  }

  /** Store byte `i` lies in the slot of the table whose id byte is at `e`. */
  predicate InSlot(data: seq<byte>, e: nat, i: nat)
  {
    e < |data| && SlotStart(data[e]) <= i < SlotStart(data[e]) + TableSize(data[e])
  }

  /** The offsets of the id bytes whose tables the loop copies, in order.
      Entries follow each other back to back; the chain ends when the
      segment is used up, at an id of 15, or at a table the rest of the
      segment is too short for. */
  function Entries(data: seq<byte>, offset: nat, remaining: nat): (es: seq<nat>)
    requires offset + remaining <= |data|
    ensures forall k | 0 <= k < |es| :: offset <= es[k] < |data| && es[k] + 1 + TableSize(data[es[k]]) <= offset + remaining
    ensures forall k | 0 <= k < |es| :: TableId(data[es[k]]) < 15
    ensures es != [] ==> es[0] == offset
    decreases remaining
  {
    if remaining == 0 || TableId(data[offset]) == 15 || remaining < TableSize(data[offset]) + 1 then []
    else [offset] + Entries(data, offset + TableSize(data[offset]) + 1, remaining - (TableSize(data[offset]) + 1))
  }

  /** The offset just past the last table of the chain. */
  function EntriesEnd(data: seq<byte>, offset: nat, es: seq<nat>): (end: nat)
    requires forall k | 0 <= k < |es| :: es[k] < |data|
  {
    if es == [] then offset
    else
      var last := es[|es| - 1];
      last + 1 + TableSize(data[last])
  }

  /** Every table the loop reaches has a slot inside the 256-byte store. */
  predicate EntriesFit(data: seq<byte>, offset: nat, remaining: nat)
    requires offset + remaining <= |data|
    decreases remaining
  {
    || remaining == 0 || TableId(data[offset]) == 15 || remaining < TableSize(data[offset]) + 1
    || (Fits(data[offset]) && EntriesFit(data, offset + TableSize(data[offset]) + 1, remaining - (TableSize(data[offset]) + 1)))
  }

  /** Each table of `es` has a slot inside the store. */
  predicate EachFits(data: seq<byte>, es: seq<nat>)
    requires forall k | 0 <= k < |es| :: es[k] < |data|
  {
    forall k | 0 <= k < |es| :: Fits(data[es[k]])
  }

  /** The chain fits exactly when each of its tables does. */
  lemma {:induction false} EntriesFitEach(data: seq<byte>, offset: nat, remaining: nat)
    requires offset + remaining <= |data|
    ensures EntriesFit(data, offset, remaining) <==> EachFits(data, Entries(data, offset, remaining))
    decreases remaining
  {
    var es := Entries(data, offset, remaining);
    if es != [] {
      var next := offset + TableSize(data[offset]) + 1;
      var rest := Entries(data, next, remaining - (TableSize(data[offset]) + 1));
      EntriesFitEach(data, next, remaining - (TableSize(data[offset]) + 1));
      assert es == [offset] + rest;
      if EachFits(data, es) {
        forall k | 0 <= k < |rest| ensures Fits(data[rest[k]]) {
          assert rest[k] == es[k + 1];
        }
      }
      if EntriesFit(data, offset, remaining) {
        forall k | 0 <= k < |es| ensures Fits(data[es[k]]) {
          if k > 0 { assert es[k] == rest[k - 1]; }
        }
      }
    }
  }

  /** The last id byte the loop looks at and does not reject as id 15: it
      decides the reported table length. */
  function LastExamined(data: seq<byte>, offset: nat, remaining: nat): (b: Option<byte>)
    requires offset + remaining <= |data|
    decreases remaining
  {
    if remaining == 0 || TableId(data[offset]) == 15 then None
    else if remaining < TableSize(data[offset]) + 1 then Some(data[offset])
    else
      match LastExamined(data, offset + TableSize(data[offset]) + 1, remaining - (TableSize(data[offset]) + 1))
      case None => Some(data[offset])
      case Some(b) => Some(b)
  }

  /** Some table of `es` is copied over store byte `i`. */
  predicate Covered(data: seq<byte>, es: seq<nat>, i: nat)
  {
    exists e | e in es :: InSlot(data, e, i)
  }

  /** The byte a table whose id byte is at `e` puts at store byte `i`. */
  function TableByte(data: seq<byte>, e: nat, i: nat): (b: byte)
    requires TableInData(data, e) && InSlot(data, e, i)
  {
    data[e + 1 + i - SlotStart(data[e])]
  }

  /** `after` is `before` with the tables of `es` copied in turn: a byte no
      table covers keeps its value, and a covered byte holds the matching
      byte of the last table that covers it. */
  predicate CopiedInOrder(data: seq<byte>, es: seq<nat>, before: QStore, after: QStore)
    requires forall k | 0 <= k < |es| :: TableInData(data, es[k])
  {
    && (forall i | 0 <= i < QStoreSize && !Covered(data, es, i) :: after[i] == before[i])
    && (forall k, i | 0 <= k < |es| && 0 <= i < QStoreSize && InSlot(data, es[k], i) && !Covered(data, es[k + 1..], i) ::
          after[i] == TableByte(data, es[k], i))
  }

  /** Two chains copied one after the other are copied in order as one
      chain: the later chain's tables win where slots overlap. */
  lemma CopiedInOrderAppend(data: seq<byte>, es1: seq<nat>, es2: seq<nat>, a: QStore, b: QStore, c: QStore)
    requires forall k | 0 <= k < |es1| :: TableInData(data, es1[k])
    requires forall k | 0 <= k < |es2| :: TableInData(data, es2[k])
    requires CopiedInOrder(data, es1, a, b) && CopiedInOrder(data, es2, b, c)
    ensures CopiedInOrder(data, es1 + es2, a, c)
  {
    var all := es1 + es2;
    forall i | 0 <= i < QStoreSize && !Covered(data, all, i)
      ensures c[i] == a[i]
    {
      assert !Covered(data, es1, i) by {
        forall x | x in es1 ensures !InSlot(data, x, i) {
          assert x in all;
        }
      }
      assert !Covered(data, es2, i) by {
        forall x | x in es2 ensures !InSlot(data, x, i) {
          assert x in all;
        }
      }
    }
    forall k, i | 0 <= k < |all| && 0 <= i < QStoreSize && InSlot(data, all[k], i) && !Covered(data, all[k + 1..], i)
      ensures c[i] == TableByte(data, all[k], i)
    {
      if k < |es1| {
        assert all[k] == es1[k];
        assert all[k + 1..] == es1[k + 1..] + es2;
        assert !Covered(data, es1[k + 1..], i) by {
          forall x | x in es1[k + 1..] ensures !InSlot(data, x, i) {
            assert x in all[k + 1..];
          }
        }
        assert !Covered(data, es2, i) by {
          forall x | x in es2 ensures !InSlot(data, x, i) {
            assert x in all[k + 1..];
          }
        }
      } else {
        assert all[k] == es2[k - |es1|];
        assert all[k + 1..] == es2[k - |es1| + 1..];
      }
    }
  }

  /** Copying one more table in front of a chain that was copied in order. */
  lemma CopiedInOrderCons(data: seq<byte>, e: nat, es: seq<nat>, before: QStore, mid: QStore, after: QStore)
    requires TableInData(data, e) && Fits(data[e])
    requires forall k | 0 <= k < |es| :: TableInData(data, es[k])
    requires mid == CopyTable(before, SlotStart(data[e]), data[e + 1..e + 1 + TableSize(data[e])])
    requires CopiedInOrder(data, es, mid, after)
    ensures CopiedInOrder(data, [e] + es, before, after)
  {
    var all := [e] + es;
    forall i | 0 <= i < QStoreSize && InSlot(data, e, i) && !Covered(data, es, i)
      ensures after[i] == TableByte(data, e, i)
    {
      assert after[i] == mid[i];
    }
    forall k, i | 1 <= k < |all| && 0 <= i < QStoreSize && InSlot(data, all[k], i) && !Covered(data, all[k + 1..], i)
      ensures after[i] == TableByte(data, all[k], i)
    {
      assert all[k] == es[k - 1] && all[k + 1..] == es[k - 1 + 1..];
    }
    assert all[1..] == es;
    forall i | 0 <= i < QStoreSize && !Covered(data, all, i)
      ensures after[i] == before[i]
    {
      assert e in all;
      assert !Covered(data, es, i) by {
        forall x | x in es ensures !InSlot(data, x, i) {
          assert x in all;
        }
      }
    }
  }

  datatype DqtStop = DqtStop(st: ParserState, offset: nat, remaining: nat)

  /** The `while (quant_size > 0)` loop, with `offset` and `remaining` its
      `offset` and `quant_size`.  The test `offset + 1 > size` of the source
      can never succeed here because `offset + remaining` stays within the
      buffer, so it is left out. */
  function DqtEntries(data: seq<byte>, st: ParserState, offset: nat, remaining: nat): (r: Outcome<DqtStop>)
    requires offset + remaining <= |data|
    ensures r.Ok? <==> EntriesFit(data, offset, remaining)
    ensures r.Ok? ==> r.value.offset + r.value.remaining == offset + remaining
    ensures r.Ok? ==> r.value.remaining == 0 || TableId(data[r.value.offset]) == 15
                      || r.value.remaining < TableSize(data[r.value.offset]) + 1
    ensures r.Ok? && r.value.remaining > 0 && TableId(data[r.value.offset]) != 15 ==>
              r.value.st.qTablesLength == 2 * TableSize(data[r.value.offset])
    ensures r.Ok? ==> r.value.st == st.(qTables := r.value.st.qTables, qTablesLength := r.value.st.qTablesLength)
    ensures r.Ok? ==> r.value.st.qTablesLength in {st.qTablesLength, 128, 256}
    ensures r.Unsafe? ==> r.fault.QTableOverflow?
                          && r.fault.id < 15
                          && (r.fault.tableSize == 64 || r.fault.tableSize == 128)
                          && !SlotFits(r.fault.id, r.fault.tableSize)
    decreases remaining
  {
    if remaining == 0 then Ok(DqtStop(st, offset, remaining))
    else
      var id := TableId(data[offset]);
      if id == 15 then Ok(DqtStop(st, offset, remaining))
      else
        var size := TableSize(data[offset]);
        var st1 := st.(qTablesLength := size * 2);
        if remaining < size + 1 then Ok(DqtStop(st1, offset, remaining))
        else
          if !Fits(data[offset]) then
            SlotOfIdByte(data[offset]);
            Unsafe(QTableOverflow(id, size))
          else
            var table := data[offset + 1..offset + 1 + size];
            DqtEntries(data, st1.(qTables := CopyTable(st.qTables, SlotStart(data[offset]), table)),
                       offset + size + 1, remaining - (size + 1))
  }

  /** The chain ends where the chain after its first entry ends. */
  lemma {:induction false} EntriesEndStep(data: seq<byte>, offset: nat, remaining: nat)
    requires offset + remaining <= |data|
    requires remaining > 0 && TableId(data[offset]) != 15 && remaining >= TableSize(data[offset]) + 1
    ensures var next := offset + TableSize(data[offset]) + 1;
            EntriesEnd(data, offset, Entries(data, offset, remaining))
            == EntriesEnd(data, next, Entries(data, next, remaining - (TableSize(data[offset]) + 1)))
  {
    var next := offset + TableSize(data[offset]) + 1;
    var rest := Entries(data, next, remaining - (TableSize(data[offset]) + 1));
    var es := Entries(data, offset, remaining);
    assert es == [offset] + rest;
    if rest != [] {
      assert es[|es| - 1] == rest[|rest| - 1];
    }
  }

  /** Where the tables go: the loop copies the tables of the entry chain
      in turn, each to slot `id * size`, a later table overwriting an
      earlier one where their slots overlap; no other store byte changes. */
  lemma {:induction false} DqtEntriesCopies(data: seq<byte>, st: ParserState, offset: nat, remaining: nat)
    requires offset + remaining <= |data|
    requires EntriesFit(data, offset, remaining)
    ensures DqtEntries(data, st, offset, remaining).Ok?
    ensures CopiedInOrder(data, Entries(data, offset, remaining), st.qTables,
                          DqtEntries(data, st, offset, remaining).value.st.qTables)
    decreases remaining
  {
    if remaining > 0 && TableId(data[offset]) != 15 && remaining >= TableSize(data[offset]) + 1 {
      var next, rest' := NextEntry(data, offset), remaining - (TableSize(data[offset]) + 1);
      var st2 := AfterTable(data, st, offset);
      EntriesCons(data, offset, remaining);
      DqtEntriesCons(data, st, offset, remaining);
      DqtEntriesCopies(data, st2, next, rest');
      CopiedInOrderCons(data, offset, Entries(data, next, rest'), st.qTables, st2.qTables,
                        DqtEntries(data, st2, next, rest').value.st.qTables);
    }
  }

  /** Where the entry after the one at `offset` starts: past the id byte
      and 64 one-byte values, or 64 two-byte values when the precision
      nibble of the id byte is set. */
  function NextEntry(data: seq<byte>, offset: nat): (next: nat)
    requires offset < |data|
    ensures next == offset + 65 <==> data[offset] < 16
    ensures next == offset + 129 <==> data[offset] >= 16
  {
    offset + TableSize(data[offset]) + 1
  }

  /** The state after the loop copies the table whose id byte is at `offset`:
      only the store and its length change, the table's bytes land in its
      slot and every other store byte is kept. */
  function AfterTable(data: seq<byte>, st: ParserState, offset: nat): (r: ParserState)
    requires offset < |data| && offset + TableSize(data[offset]) + 1 <= |data|
    requires Fits(data[offset])
    ensures r == st.(qTables := r.qTables, qTablesLength := r.qTablesLength)
    ensures r.qTablesLength == 2 * TableSize(data[offset])
    ensures r.qTables[SlotStart(data[offset])..SlotStart(data[offset]) + TableSize(data[offset])] == data[offset + 1..offset + 1 + TableSize(data[offset])]
    ensures forall i | 0 <= i < QStoreSize && !(SlotStart(data[offset]) <= i < SlotStart(data[offset]) + TableSize(data[offset])) :: r.qTables[i] == st.qTables[i]
  {
    var at, size := SlotStart(data[offset]), TableSize(data[offset]);
    var table := data[offset + 1..offset + 1 + size];
    var q := CopyTable(st.qTables, at, table);
    st.(qTablesLength := size * 2).(qTables := q)
  }

  lemma EntriesCons(data: seq<byte>, offset: nat, remaining: nat)
    requires offset + remaining <= |data|
    requires remaining > 0 && TableId(data[offset]) != 15 && remaining >= TableSize(data[offset]) + 1
    ensures Entries(data, offset, remaining) == [offset] + Entries(data, NextEntry(data, offset), remaining - (TableSize(data[offset]) + 1))
  {
  }

  lemma DqtEntriesCons(data: seq<byte>, st: ParserState, offset: nat, remaining: nat)
    requires offset + remaining <= |data|
    requires remaining > 0 && TableId(data[offset]) != 15 && remaining >= TableSize(data[offset]) + 1
    requires Fits(data[offset])
    ensures DqtEntries(data, st, offset, remaining)
            == DqtEntries(data, AfterTable(data, st, offset), NextEntry(data, offset), remaining - (TableSize(data[offset]) + 1))
  {
  }

  /** Where the walk over the entries stops: at the first entry that is
      absent, marks the end with id 15, or is cut short. */
  function ChainEnd(data: seq<byte>, offset: nat, remaining: nat): (end: nat)
    requires offset + remaining <= |data|
    ensures offset <= end <= offset + remaining
    decreases remaining
  {
    if remaining == 0 || TableId(data[offset]) == 15 || remaining < TableSize(data[offset]) + 1 then offset
    else ChainEnd(data, offset + TableSize(data[offset]) + 1, remaining - (TableSize(data[offset]) + 1))
  }

  /** The walk stops right after the last table of the chain. */
  lemma {:induction false} ChainEndIsEntriesEnd(data: seq<byte>, offset: nat, remaining: nat)
    requires offset + remaining <= |data|
    ensures ChainEnd(data, offset, remaining) == EntriesEnd(data, offset, Entries(data, offset, remaining))
    decreases remaining
  {
    if remaining > 0 && TableId(data[offset]) != 15 && remaining >= TableSize(data[offset]) + 1 {
      EntriesEndStep(data, offset, remaining);
      ChainEndIsEntriesEnd(data, offset + TableSize(data[offset]) + 1, remaining - (TableSize(data[offset]) + 1));
    }
  }

  /** Without a fault the loop stops where the chain ends. */
  lemma {:induction false} DqtEntriesStop(data: seq<byte>, st: ParserState, offset: nat, remaining: nat)
    requires offset + remaining <= |data|
    requires EntriesFit(data, offset, remaining)
    ensures DqtEntries(data, st, offset, remaining).Ok?
    ensures DqtEntries(data, st, offset, remaining).value.offset == ChainEnd(data, offset, remaining)
    decreases remaining
  {
    if remaining > 0 && TableId(data[offset]) != 15 && remaining >= TableSize(data[offset]) + 1 {
      DqtEntriesCons(data, st, offset, remaining);
      DqtEntriesStop(data, AfterTable(data, st, offset), NextEntry(data, offset), remaining - (TableSize(data[offset]) + 1));
    }
  }

  /** The reported length is twice the table size that the last id byte
      the loop examines announces, or unchanged when it examines none. */
  lemma {:induction false} DqtEntriesLength(data: seq<byte>, st: ParserState, offset: nat, remaining: nat)
    requires offset + remaining <= |data|
    requires EntriesFit(data, offset, remaining)
    ensures DqtEntries(data, st, offset, remaining).Ok?
    ensures DqtEntries(data, st, offset, remaining).value.st.qTablesLength ==
              match LastExamined(data, offset, remaining)
              case None => st.qTablesLength
              case Some(b) => 2 * TableSize(b)
    decreases remaining
  {
    if remaining > 0 && TableId(data[offset]) != 15 && remaining >= TableSize(data[offset]) + 1 {
      DqtEntriesCons(data, st, offset, remaining);
      DqtEntriesLength(data, AfterTable(data, st, offset), NextEntry(data, offset), remaining - (TableSize(data[offset]) + 1));
    }
  }

  datatype DqtRead = DqtRead(st: ParserState, next: nat)

  /** The offset `read_dqt` resumes at: the buffer end when the length field
      is missing or below 2, otherwise the declared end clamped to the
      buffer. */
  function DqtEnd(data: seq<byte>, offset: nat): (next: nat)
  {
    if offset + 2 > |data| || Be16(data, offset) < 2 then |data|
    else if offset + Be16(data, offset) > |data| then |data|
    else offset + Be16(data, offset)
  }

  /** The length field is present and at least 2, so the entry loop runs
      over the bytes after it. */
  predicate HasEntries(data: seq<byte>, offset: nat)
  {
    offset + 2 <= |data| && Be16(data, offset) >= 2
  }

  /** `quant_size - 2` after clamping: how many bytes the entry loop reads. */
  function EntryBytes(data: seq<byte>, offset: nat): (n: nat)
    requires HasEntries(data, offset)
    ensures offset + 2 + n == DqtEnd(data, offset) <= |data|
  {
    DqtEnd(data, offset) - (offset + 2)
  }

  /** `read_dqt` on the segment whose length field is at `offset`. */
  function ReadDqt(data: seq<byte>, st: ParserState, offset: nat): (r: Outcome<DqtRead>)
    ensures r.Ok? ==> r.value.next == DqtEnd(data, offset)
    ensures r.Ok? ==> r.value.st == st.(qTables := r.value.st.qTables, qTablesLength := r.value.st.qTablesLength)
    ensures r.Ok? ==> r.value.st.qTablesLength in {st.qTablesLength, 128, 256}
    ensures !HasEntries(data, offset) ==> r == Ok(DqtRead(st, |data|))
    ensures r.Unsafe? ==> r.fault.QTableOverflow? && !SlotFits(r.fault.id, r.fault.tableSize)
  {
    if offset + 2 > |data| then Ok(DqtRead(st, |data|))
    else
      var declared := Be16(data, offset);
      if declared < 2 then Ok(DqtRead(st, |data|))
      else
        var clamped := if offset + declared > |data| then |data| - offset else declared;
        match DqtEntries(data, st, offset + 2, clamped - 2)
        case Unsafe(f) => Unsafe(f)
        case Ok(stop) => Ok(DqtRead(stop.st, stop.offset + stop.remaining))
  }

  /** What `read_dqt` does to the table store, for any segment: the tables
      of the entry chain are copied in turn, each to slot `id * size`, a
      later one overwriting an earlier one where their slots overlap, and
      nothing else changes; the reported length is twice the size the last
      examined id byte announces. */
  lemma ReadDqtCopies(data: seq<byte>, st: ParserState, offset: nat)
    requires HasEntries(data, offset) && EntriesFit(data, offset + 2, EntryBytes(data, offset))
    ensures ReadDqt(data, st, offset).Ok?
    ensures ReadDqt(data, st, offset).value.next
            == EntriesEnd(data, offset + 2, Entries(data, offset + 2, EntryBytes(data, offset)))
               + DqtEntries(data, st, offset + 2, EntryBytes(data, offset)).value.remaining
    ensures CopiedInOrder(data, Entries(data, offset + 2, EntryBytes(data, offset)), st.qTables,
                          ReadDqt(data, st, offset).value.st.qTables)
    ensures ReadDqt(data, st, offset).value.st.qTablesLength ==
              match LastExamined(data, offset + 2, EntryBytes(data, offset))
              case None => st.qTablesLength
              case Some(b) => 2 * TableSize(b)
  {
    var n := EntryBytes(data, offset);
    DqtEntriesCopies(data, st, offset + 2, n);
    DqtEntriesStop(data, st, offset + 2, n);
    ChainEndIsEntriesEnd(data, offset + 2, n);
    DqtEntriesLength(data, st, offset + 2, n);
    ReadDqtRunsEntries(data, st, offset);
  }

  /** With a length field of at least 2, `read_dqt` is the entry loop over
      the clamped segment body. */
  lemma ReadDqtRunsEntries(data: seq<byte>, st: ParserState, offset: nat)
    requires HasEntries(data, offset)
    ensures var r := DqtEntries(data, st, offset + 2, EntryBytes(data, offset));
            r.Ok? ==> ReadDqt(data, st, offset) == Ok(DqtRead(r.value.st, r.value.offset + r.value.remaining))
  {
  }

  /** `read_dqt` faults exactly when a table of the entry chain has a slot
      past the store. */
  lemma ReadDqtFaultIff(data: seq<byte>, st: ParserState, offset: nat)
    requires HasEntries(data, offset)
    ensures ReadDqt(data, st, offset).Unsafe? <==> !EntriesFit(data, offset + 2, EntryBytes(data, offset))
  {
    var n := EntryBytes(data, offset);
    assert ReadDqt(data, st, offset).Unsafe? <==> DqtEntries(data, st, offset + 2, n).Unsafe?;
  }

  /** A segment holding exactly one table whose slot fits copies that table
      into slot `id * size`, leaves every other byte of the store alone and
      reports a table length of twice the table size. */
  lemma {:induction false} ReadDqtOneTable(data: seq<byte>, st: ParserState, offset: nat)
    requires offset + 3 <= |data|
    requires TableId(data[offset + 2]) < 15
    requires Be16(data, offset) == TableSize(data[offset + 2]) + 3
    requires offset + Be16(data, offset) <= |data|
    requires Fits(data[offset + 2])
    ensures var at, size := SlotStart(data[offset + 2]), TableSize(data[offset + 2]);
            && ReadDqt(data, st, offset).Ok?
            && var q := ReadDqt(data, st, offset).value;
            && q.next == offset + size + 3
            && q.st.qTablesLength == 2 * size
            && q.st.qTables[at..at + size] == data[offset + 3..offset + 3 + size]
            && (forall i | 0 <= i < QStoreSize && !(at <= i < at + size) :: q.st.qTables[i] == st.qTables[i])
  {
    var at, size := SlotStart(data[offset + 2]), TableSize(data[offset + 2]);
    var table := data[offset + 3..offset + 3 + size];
    var st1 := st.(qTablesLength := size * 2).(qTables := CopyTable(st.qTables, at, table));
    assert DqtEntries(data, st, offset + 2, size + 1) == DqtEntries(data, st1, offset + size + 3, 0);
  }

  /** A segment holding two 8-bit tables with ids 0 and 1 copies them to
      the first two 64-byte slots and leaves the upper half of the store
      alone. */
  lemma ReadDqtTwoTables(st: ParserState, t0: seq<byte>, t1: seq<byte>)
    requires |t0| == 64 && |t1| == 64
    ensures var data := [0x00, 0x84, 0x00] + t0 + [0x01] + t1;
            && ReadDqt(data, st, 0).Ok?
            && var q := ReadDqt(data, st, 0).value;
            && q.next == 132
            && q.st.qTablesLength == 128
            && q.st.qTables[..64] == t0
            && q.st.qTables[64..128] == t1
            && q.st.qTables[128..] == st.qTables[128..]
  {
    var data := [0x00, 0x84, 0x00] + t0 + [0x01] + t1;
    assert data[..3] == [0x00, 0x84, 0x00] && data[67] == 1;
    assert data[3..67] == t0 && data[68..132] == t1;
    TwoTablesWalk(data, st, t0, t1);
    TwoSlots(st.qTables, t0, t1);
  }

  lemma TwoTablesWalk(data: seq<byte>, st: ParserState, t0: seq<byte>, t1: seq<byte>)
    requires |t0| == 64 && |t1| == 64 && |data| == 132
    requires data[..3] == [0x00, 0x84, 0x00] && data[67] == 1
    requires data[3..67] == t0 && data[68..132] == t1
    ensures ReadDqt(data, st, 0)
            == Ok(DqtRead(st.(qTablesLength := 128).(qTables := CopyTable(CopyTable(st.qTables, 0, t0), 64, t1)), 132))
  {
    assert data[0] == 0 && data[1] == 0x84 && data[2] == 0;
    DqtEntriesCons(data, st, 2, 130);
    var st1 := AfterTable(data, st, 2);
    DqtEntriesCons(data, st1, 67, 65);
  }

  lemma TwoSlots(store: QStore, t0: seq<byte>, t1: seq<byte>)
    requires |t0| == 64 && |t1| == 64
    ensures var r := CopyTable(CopyTable(store, 0, t0), 64, t1);
            r[..64] == t0 && r[64..128] == t1 && r[128..] == store[128..]
  {
    var r1 := CopyTable(store, 0, t0);
    var r := CopyTable(r1, 64, t1);
    assert r[..64] == r1[..64] == t0;
    assert r[128..] == r1[128..] == store[128..];
  }

  /** A segment too short for the table its id byte announces copies
      nothing, yet the table length already follows that id byte's
      precision. */
  lemma ReadDqtShortTable(data: seq<byte>, st: ParserState, offset: nat)
    requires offset + 3 <= |data|
    requires TableId(data[offset + 2]) < 15
    requires 3 <= Be16(data, offset) < TableSize(data[offset + 2]) + 3
    requires offset + Be16(data, offset) <= |data|
    ensures ReadDqt(data, st, offset)
            == Ok(DqtRead(st.(qTablesLength := 2 * TableSize(data[offset + 2])), offset + Be16(data, offset)))
  {
  }

  /** An id byte with table id 15 ends the segment at once: nothing is
      copied and the table length is kept. */
  lemma ReadDqtInvalidId(data: seq<byte>, st: ParserState, offset: nat)
    requires offset + 3 <= |data|
    requires Be16(data, offset) >= 3
    requires TableId(data[offset + 2]) == 15
    ensures ReadDqt(data, st, offset) == Ok(DqtRead(st, DqtEnd(data, offset)))
  {
  }

  /** A 64-byte table with id 4 is copied to bytes 256-319 of the 256-byte
      store: the source writes past its allocation. */
  lemma ReadDqtOverflowReachable()
    ensures var data := [0x00, 0x43, 0x04] + seq(64, _ => 1);
            ReadDqt(data, NewParser(), 0) == Unsafe(QTableOverflow(4, 64))
  {
  }
}

=== FILE: jpeg_dri.dfy ===
/** The restart interval reader `read_dri` (jpeg_stream.cpp:664-694),
    ITU-T T.81 section B.2.4.4. */
module JpegDri {
  import opened Bytes
  import opened JpegState

  datatype DriRead = DriRead(ok: bool, st: ParserState, next: nat)

  /** A restart segment that enables restart markers: complete, with a
      length of at least 4 and a non-zero interval. */
  predicate RestartEnabled(data: seq<byte>, at: nat)
  {
    at + 4 <= |data| && Be16(data, at) >= 4 && Be16(data, at + 2) != 0
  }

  /** `read_dri` on the segment whose length field is at `offset`; `ok` is
      the source's return value 0. */
  function ReadDri(data: seq<byte>, st: ParserState, offset: nat): (r: DriRead)
    ensures r.ok <==> RestartEnabled(data, offset)
    ensures offset + 4 > |data| ==> r.next == offset && r.st == st
    ensures offset + 4 <= |data| ==> r.next == offset + Be16(data, offset)
    ensures offset + 4 <= |data| && Be16(data, offset) >= 4 ==>
              r.st == st.(restartInterval := Be16(data, offset + 2))
    ensures offset + 4 <= |data| && Be16(data, offset) < 4 ==> r.st == st
  {
    if offset + 4 > |data| then DriRead(false, st, offset)
    else
      var length := Be16(data, offset);
      if length < 4 then DriRead(false, st, offset + length)
      else
        var interval := Be16(data, offset + 2);
        DriRead(interval != 0, st.(restartInterval := interval), offset + length)
  }
}

=== FILE: jpeg_examples.dfy ===
/** Well-formed header segments and what `parse` makes of a buffer built
    from them, together with buffers that reach each unsafe outcome. */
module JpegExamples {
  import opened Bytes
  import opened Outcomes
  import opened JpegMarker
  import opened JpegState
  import opened JpegSof
  import opened JpegDqt
  import opened JpegDri
  import opened JpegParse
  import opened JpegLayout

  /** A baseline frame header with three components, the first sampled
      `sampling`, the other two 0x11 sharing table 1. */
  function FrameHeaderSegment(height: uint16, width: uint16, sampling: byte): (s: seq<byte>)
  {
    [0xFF, 0xC0, 0x00, 0x11, 0x08, Hi(height), Lo(height), Hi(width), Lo(width),
     0x03, 0x01, sampling, 0x00, 0x02, 0x11, 0x01, 0x03, 0x11, 0x01]
  }

  /** A quantization table segment holding one 8-bit table. */
  function TablesSegment(id: byte, table: seq<byte>): (s: seq<byte>)
    requires |table| == 64
  {
    [0xFF, 0xDB, 0x00, 0x43, id] + table
  }

  /** A restart segment declaring `interval`. */
  function RestartIntervalSegment(interval: uint16): (s: seq<byte>)
  {
    [0xFF, 0xDD, 0x00, 0x04, Hi(interval), Lo(interval)]
  }

  /** A scan header whose declared length covers only its length field. */
  const ScanHeaderSegment: seq<byte> := [0xFF, 0xDA, 0x00, 0x02]

  lemma StepFrameHeader(data: seq<byte>, w: Walk, height: uint16, width: uint16, sampling: byte)
    requires WalkInv(data, w) && !w.badSof && !w.sosFound && !w.sofFound
    requires w.offset + 19 <= |data|
    requires data[w.offset..w.offset + 19] == FrameHeaderSegment(height, width, sampling)
    requires 1 <= height <= 2040 && 1 <= width <= 2040
    requires sampling == 0x21 || sampling == 0x22
    ensures Step(data, w) == Ok(w.(st := w.st.(width := width / 8, height := height / 8,
                                               typeCode := if sampling == 0x21 then 0 else 1),
                                   offset := w.offset + 19, sofFound := true))
  {
    var o := w.offset;
    FrameHeaderSegmentAccepted(data, o, height, width, sampling);
    assert ScanMarker(data, o) == Hit(SOF0, o + 2);
  }

  lemma FrameHeaderSegmentAccepted(data: seq<byte>, o: nat, height: uint16, width: uint16, sampling: byte)
    requires o + 19 <= |data|
    requires data[o..o + 19] == FrameHeaderSegment(height, width, sampling)
    requires 1 <= height <= 2040 && 1 <= width <= 2040
    requires sampling == 0x21 || sampling == 0x22
    ensures data[o] == Start && data[o + 1] == SOF0
    ensures FrameHeaderAccepted(data, o + 2)
    ensures Be16(data, o + 2) == 17
    ensures FrameHeight(data, o + 2) == height && FrameWidth(data, o + 2) == width
    ensures SamplingType(data, o + 2) == if sampling == 0x21 then 0 else 1
  {
  }

  lemma StepTables(data: seq<byte>, w: Walk, id: byte, table: seq<byte>)
    requires WalkInv(data, w) && !w.badSof && !w.sosFound
    requires |table| == 64 && id < 4
    requires w.offset + 69 <= |data|
    requires data[w.offset..w.offset + 69] == TablesSegment(id, table)
    ensures Step(data, w).Ok?
    ensures var w1 := Step(data, w).value;
            && w1 == w.(st := w1.st, offset := w.offset + 69, dqtFound := true)
            && w1.st == w.st.(qTables := w1.st.qTables, qTablesLength := 128)
            && w1.st.qTables[id * 64..id * 64 + 64] == table
  {
    var o := w.offset;
    TablesSegmentFacts(data, o, id, table);
    assert ScanMarker(data, o) == Hit(DQT, o + 2);
    ReadDqtOneTable(data, w.st, o + 2);
  }

  lemma TablesSegmentFacts(data: seq<byte>, o: nat, id: byte, table: seq<byte>)
    requires |table| == 64 && id < 4
    requires o + 69 <= |data|
    requires data[o..o + 69] == TablesSegment(id, table)
    ensures data[o] == Start && data[o + 1] == DQT
    ensures Be16(data, o + 2) == 0x43
    ensures data[o + 4] == id && TableId(id) == id && TableSize(id) == 64
    ensures data[o + 5..o + 69] == table
  {
  }

  lemma StepRestartInterval(data: seq<byte>, w: Walk, interval: uint16)
    requires WalkInv(data, w) && !w.badSof && !w.sosFound
    requires w.offset + 6 <= |data|
    requires data[w.offset..w.offset + 6] == RestartIntervalSegment(interval)
    ensures Step(data, w) == Ok(w.(st := w.st.(restartInterval := interval), offset := w.offset + 6,
                                   driFound := w.driFound || interval != 0))
  {
    var o := w.offset;
    var seg := RestartIntervalSegment(interval);
    assert data[o] == seg[0] && data[o + 1] == seg[1];
    assert data[o + 2] == seg[2] && data[o + 3] == seg[3];
    assert data[o + 4] == seg[4] && data[o + 5] == seg[5];
    assert ScanMarker(data, o) == Hit(DRI, o + 2);
    Be16At(data, o + 2, 4);
    Be16At(data, o + 4, interval);
  }

  lemma StepScanHeader(data: seq<byte>, w: Walk)
    requires WalkInv(data, w) && !w.badSof && !w.sosFound
    requires w.offset + 4 <= |data|
    requires data[w.offset..w.offset + 4] == ScanHeaderSegment
    ensures Step(data, w) == Ok(w.(offset := w.offset + 2, sosFound := true, headerSize := w.offset + 4))
  {
  }

  /** A scan header marker at the walk's offset ends the walk with the
      header size its length field declares. */
  lemma StepScanMarker(data: seq<byte>, w: Walk)
    requires WalkInv(data, w) && !w.badSof && !w.sosFound
    requires w.offset + 4 <= |data|
    requires data[w.offset] == Start && data[w.offset + 1] == SOS
    ensures Step(data, w) == Ok(w.(offset := w.offset + 2, sosFound := true,
                                   headerSize := w.offset + 2 + Be16(data, w.offset + 2)))
  {
  }

  /** Where the segments of a well-formed header sit in the buffer. */
  function HeaderBuffer(height: uint16, width: uint16, sampling: byte, id: byte,
                        table: seq<byte>, interval: uint16, scan: seq<byte>): (data: seq<byte>)
    requires |table| == 64
    ensures |data| == 98 + |scan|
    ensures data[0..19] == FrameHeaderSegment(height, width, sampling)
    ensures data[19..88] == TablesSegment(id, table)
    ensures data[88..94] == RestartIntervalSegment(interval)
    ensures data[94..98] == ScanHeaderSegment
    ensures data[98..] == scan
  {
    FrameHeaderSegment(height, width, sampling) + TablesSegment(id, table)
    + RestartIntervalSegment(interval) + ScanHeaderSegment + scan
  }

  /** The first two iterations over a frame header and a table segment. */
  lemma FrameAndTablesWalk(data: seq<byte>, height: uint16, width: uint16, sampling: byte, id: byte,
                           table: seq<byte>) returns (w2: Walk)
    requires 8 <= height <= 2040 && 8 <= width <= 2040
    requires sampling == 0x21 || sampling == 0x22
    requires id < 4 && |table| == 64
    requires 88 <= |data| <= MaxBuffer
    requires data[0..19] == FrameHeaderSegment(height, width, sampling)
    requires data[19..88] == TablesSegment(id, table)
    ensures WalkInv(data, w2) && !w2.badSof && !w2.sosFound && w2.offset == 88
    ensures ParseLoop(data, Walk(ResetForParse(NewParser()), 0, false, false, false, false, 0, false))
            == ParseLoop(data, w2)
    ensures w2.sofFound && w2.dqtFound && !w2.driFound && w2.headerSize == 0
    ensures w2.st.width == width / 8 && w2.st.height == height / 8
    ensures w2.st.typeCode == (if sampling == 0x21 then 0 else 1)
    ensures w2.st.restartInterval == 0
    ensures w2.st.qTablesLength == 128
    ensures w2.st.qTables[id * 64..id * 64 + 64] == table
  {
    var w0 := Walk(ResetForParse(NewParser()), 0, false, false, false, false, 0, false);
    assert data[0..19] == data[0..0 + 19];
    StepFrameHeader(data, w0, height, width, sampling);
    var w1 := Step(data, w0).value;
    LoopAdvances(data, w0);
    StepTables(data, w1, id, table);
    w2 := Step(data, w1).value;
    LoopAdvances(data, w1);
  }

  /** The walk over a well-formed header visits the four segments in turn
      and stops after the scan header. */
  lemma HeaderWalk(data: seq<byte>, height: uint16, width: uint16, sampling: byte, id: byte,
                   table: seq<byte>, interval: uint16)
    requires 8 <= height <= 2040 && 8 <= width <= 2040
    requires sampling == 0x21 || sampling == 0x22
    requires id < 4 && |table| == 64
    requires 98 <= |data| <= MaxBuffer
    requires data[0..19] == FrameHeaderSegment(height, width, sampling)
    requires data[19..88] == TablesSegment(id, table)
    requires data[88..94] == RestartIntervalSegment(interval)
    requires data[94..98] == ScanHeaderSegment
    ensures var w0 := Walk(ResetForParse(NewParser()), 0, false, false, false, false, 0, false);
            var r := ParseLoop(data, w0);
            && r.Ok? && !r.value.badSof && r.value.sofFound && r.value.dqtFound
            && (r.value.driFound <==> interval != 0)
            && r.value.headerSize == 98
            && r.value.st.width == width / 8 && r.value.st.height == height / 8
            && r.value.st.typeCode == (if sampling == 0x21 then 0 else 1)
            && r.value.st.restartInterval == interval
            && r.value.st.qTablesLength == 128
            && r.value.st.qTables[id * 64..id * 64 + 64] == table
  {
    var w2 := FrameAndTablesWalk(data, height, width, sampling, id, table);
    StepRestartInterval(data, w2, interval);
    var w3 := Step(data, w2).value;
    LoopAdvances(data, w2);
    StepScanHeader(data, w3);
    var w4 := Step(data, w3).value;
    LoopAdvances(data, w3);
    assert ParseLoop(data, w4) == Ok(w4);
  }

  /** A buffer made of a frame header, one quantization table, a restart
      interval segment and a scan header parses successfully whatever the
      scan bytes: the block dimensions are the pixel dimensions over 8, the
      type is 0 for 4:2:0 and 1 for 4:2:2 plus 64 for a non-zero interval,
      the table lands in its slot, and the scan view is everything after
      the 98 header bytes. */
  lemma WellFormedHeaderParses(height: uint16, width: uint16, sampling: byte, id: byte,
                               table: seq<byte>, interval: uint16, scan: seq<byte>)
    requires 8 <= height <= 2040 && 8 <= width <= 2040
    requires sampling == 0x21 || sampling == 0x22
    requires id < 4 && |table| == 64
    requires 98 + |scan| <= MaxBuffer
    ensures var r := Parse(NewParser(), HeaderBuffer(height, width, sampling, id, table, interval, scan));
            && r.Ok? && r.value.ok
            && r.value.st.width == width / 8 && r.value.st.height == height / 8
            && r.value.st.typeCode == (if sampling == 0x21 then 0 else 1) + (if interval != 0 then 64 else 0)
            && r.value.st.restartInterval == interval
            && r.value.st.precision == 0
            && r.value.st.qTablesLength == 128
            && r.value.st.qTables[id * 64..id * 64 + 64] == table
            && r.value.st.scanData == Some(98) && r.value.st.scanLength == |scan|
  {
    var data := HeaderBuffer(height, width, sampling, id, table, interval, scan);
    HeaderWalk(data, height, width, sampling, id, table, interval);
  }

  /** A JFIF marker in the last two bytes makes the source read the segment
      length past the end of the buffer. */
  lemma LengthPastEndReachable()
    ensures Parse(NewParser(), [0xFF, 0xE0]) == Unsafe(LengthFieldPastEnd(2))
  {
  }

  /** An accepted frame header followed at once by a second baseline frame
      header marker trips the source's assert. */
  lemma SecondFrameHeaderReachable(data: seq<byte>, height: uint16, width: uint16, sampling: byte)
    requires 21 <= |data| <= MaxBuffer
    requires data[0..19] == FrameHeaderSegment(height, width, sampling)
    requires data[19] == Start && data[20] == SOF0
    requires 1 <= height <= 2040 && 1 <= width <= 2040
    requires sampling == 0x21 || sampling == 0x22
    ensures Parse(NewParser(), data) == Unsafe(SecondFrameHeader(21))
  {
    var w0 := Walk(ResetForParse(NewParser()), 0, false, false, false, false, 0, false);
    assert data[0..19] == data[0..0 + 19];
    StepFrameHeader(data, w0, height, width, sampling);
    var w1 := Step(data, w0).value;
    LoopAdvances(data, w0);
    assert ScanMarker(data, 19) == Hit(SOF0, 21);
    assert Step(data, w1) == Unsafe(SecondFrameHeader(21));
  }

  /** A table id of 4 for an 8-bit table makes the source copy it past the
      end of the 256-byte store. */
  lemma TableOverflowReachable(table: seq<byte>)
    requires |table| == 64
    ensures Parse(NewParser(), [0xFF, 0xDB, 0x00, 0x43, 0x04] + table) == Unsafe(QTableOverflow(4, 64))
  {
  }

  /** A frame header and a table followed by a scan header whose declared
      length runs past the buffer: the source's unsigned scan length
      `size - headerSize` would wrap around. */
  lemma ScanPastEndReachable(data: seq<byte>, height: uint16, width: uint16, sampling: byte, id: byte,
                             table: seq<byte>)
    requires 8 <= height <= 2040 && 8 <= width <= 2040
    requires sampling == 0x21 || sampling == 0x22
    requires id < 4 && |table| == 64
    requires |data| == 92
    requires data[0..19] == FrameHeaderSegment(height, width, sampling)
    requires data[19..88] == TablesSegment(id, table)
    requires data[88] == Start && data[89] == SOS && Be16(data, 90) > 2
    ensures Parse(NewParser(), data) == Unsafe(ScanPastEnd(90 + Be16(data, 90)))
  {
    var w2 := FrameAndTablesWalk(data, height, width, sampling, id, table);
    StepScanMarker(data, w2);
    var w3 := Step(data, w2).value;
    LoopAdvances(data, w2);
    assert ParseLoop(data, w3) == Ok(w3);
  }

  /** A buffer holding only a frame header and a table segment, with no
      scan header at all: the walk runs off the end, `parse` still accepts
      it, and the header size 0 makes the whole buffer scan data. */
  lemma NoScanHeaderParses(data: seq<byte>, height: uint16, width: uint16, sampling: byte, id: byte,
                           table: seq<byte>)
    requires 8 <= height <= 2040 && 8 <= width <= 2040
    requires sampling == 0x21 || sampling == 0x22
    requires id < 4 && |table| == 64
    requires data == FrameHeaderSegment(height, width, sampling) + TablesSegment(id, table)
    ensures Parse(NewParser(), data).Ok? && Parse(NewParser(), data).value.ok
    ensures Parse(NewParser(), data).value.st.scanData == Some(0)
    ensures Parse(NewParser(), data).value.st.scanLength == |data| == 88
  {
    assert data[0..19] == FrameHeaderSegment(height, width, sampling);
    assert data[19..88] == TablesSegment(id, table);
    NoScanHeaderWalk(data, height, width, sampling, id, table);
  }

  lemma NoScanHeaderWalk(data: seq<byte>, height: uint16, width: uint16, sampling: byte, id: byte,
                         table: seq<byte>)
    requires 8 <= height <= 2040 && 8 <= width <= 2040
    requires sampling == 0x21 || sampling == 0x22
    requires id < 4 && |table| == 64
    requires |data| == 88
    requires data[0..19] == FrameHeaderSegment(height, width, sampling)
    requires data[19..88] == TablesSegment(id, table)
    ensures Parse(NewParser(), data).Ok? && Parse(NewParser(), data).value.ok
    ensures Parse(NewParser(), data).value.st.scanData == Some(0)
    ensures Parse(NewParser(), data).value.st.scanLength == 88
  {
    var w2 := FrameAndTablesWalk(data, height, width, sampling, id, table);
    assert ParseLoop(data, w2) == Ok(w2);
  }

  /** The four-segment header of the examples is such a layout, with the
      frame header first; its restart segment enables restart markers
      exactly when its interval is non-zero. */
  lemma HeaderBufferIsLayout(height: uint16, width: uint16, sampling: byte, id: byte,
                             table: seq<byte>, interval: uint16, scan: seq<byte>)
    requires 8 <= height <= 2040 && 8 <= width <= 2040
    requires sampling == 0x21 || sampling == 0x22
    requires id < 4 && |table| == 64
    ensures var data := HeaderBuffer(height, width, sampling, id, table, interval, scan);
            && Layout(data, [0, 19, 88, 94], 0)
            && (RestartBefore(data, [0, 19, 88, 94], 3) <==> interval != 0)
  {
    var data := HeaderBuffer(height, width, sampling, id, table, interval, scan);
    var starts := [0, 19, 88, 94];
    HeaderFrameSegment(data, height, width, sampling);
    HeaderTablesSegment(data, id, table);
    HeaderRestartSegment(data, interval);
    assert data[94..98] == ScanHeaderSegment;
    assert data[94] == Start && data[95] == SOS && data[96] == 0 && data[97] == 2;
    HeaderSegmentsLayout(data);
  }

  /** Segments at 0, 19 and 88 that follow one another without a gap,
      a frame header, a table segment and a restart segment, then a scan
      header at 94, form a layout. */
  lemma HeaderSegmentsLayout(data: seq<byte>)
    requires 98 <= |data|
    requires SegmentComplete(data, 0) && data[1] == SOF0 && Resume(data, 0) == 19
    requires SegmentComplete(data, 19) && data[20] == DQT && Resume(data, 19) == 88
    requires SegmentComplete(data, 88) && data[89] == DRI && Resume(data, 88) == 94
    requires data[94] == Start && data[95] == SOS && data[96] == 0 && data[97] == 2
    ensures Layout(data, [0, 19, 88, 94], 0)
    ensures RestartBefore(data, [0, 19, 88, 94], 3) <==> RestartEnabled(data, 90)
  {
    var starts := [0, 19, 88, 94];
    assert CodeAt(data, starts, 0) == SOF0;
    assert CodeAt(data, starts, 1) == DQT;
    assert CodeAt(data, starts, 2) == DRI;
  }

  lemma HeaderFrameSegment(data: seq<byte>, height: uint16, width: uint16, sampling: byte)
    requires 8 <= height <= 2040 && 8 <= width <= 2040
    requires sampling == 0x21 || sampling == 0x22
    requires 19 <= |data| && data[0..19] == FrameHeaderSegment(height, width, sampling)
    ensures SegmentComplete(data, 0) && data[1] == SOF0 && Resume(data, 0) == 19
  {
    FrameHeaderSegmentAccepted(data, 0, height, width, sampling);
  }

  lemma HeaderTablesSegment(data: seq<byte>, id: byte, table: seq<byte>)
    requires id < 4 && |table| == 64
    requires 88 <= |data| && data[19..88] == TablesSegment(id, table)
    ensures SegmentComplete(data, 19) && data[20] == DQT && Resume(data, 19) == 88
  {
    TablesSegmentFacts(data, 19, id, table);
    assert EntriesFit(data, 23, EntryBytes(data, 21)) by {
      assert EntryBytes(data, 21) == 65;
      assert EntriesFit(data, 88, 0);
    }
  }

  lemma HeaderRestartSegment(data: seq<byte>, interval: uint16)
    requires 94 <= |data| && data[88..94] == RestartIntervalSegment(interval)
    ensures SegmentComplete(data, 88) && data[89] == DRI && Resume(data, 88) == 94
    ensures RestartEnabled(data, 90) <==> interval != 0
  {
    var seg := RestartIntervalSegment(interval);
    assert data[88] == seg[0] && data[89] == seg[1] && data[90] == seg[2] && data[91] == seg[3];
    assert data[92] == seg[4] && data[93] == seg[5];
    Be16At(data, 90, 4);
    Be16At(data, 92, interval);
  }
}

=== FILE: jpeg_layout.dfy ===
/** A class of buffers `parse` accepts (jpeg_stream.cpp:696-781), and
    what it makes of them: any sequence of complete header segments with
    exactly one accepted baseline frame header and at least one
    quantization table segment, ended by a scan header whose declared
    segment lies inside the buffer.  The segments may come in any order and
    any bytes without a 0xFF may sit between them.  The class is
    sufficient, not necessary: `parse` also accepts some buffers outside
    it, such as ones without a scan header. */
module JpegLayout {
  import opened Bytes
  import opened Outcomes
  import opened JpegMarker
  import opened JpegState
  import opened JpegSof
  import opened JpegDqt
  import opened JpegDri
  import opened JpegParse

  /** A header segment whose marker starts at `at` that the walk passes
      without a fault and without ending: skipped segments carry their
      length field, a baseline frame header is accepted and at least one
      block wide and high, a quantization table segment declares a length
      and each of its tables fits its slot, and it is not a scan header. */
  predicate SegmentComplete(data: seq<byte>, at: nat)
  {
    && at + 2 <= |data|
    && data[at] == Start
    && data[at + 1] != SOS
    && (data[at + 1] == JFIF || data[at + 1] == CMT || data[at + 1] == DHT ==> at + 4 <= |data|)
    && (data[at + 1] == SOF0 ==>
          && FrameHeaderAccepted(data, at + 2)
          && FrameWidth(data, at + 2) >= 8 && FrameHeight(data, at + 2) >= 8)
    && (data[at + 1] == DQT ==>
          HasEntries(data, at + 2) && EntriesFit(data, at + 4, EntryBytes(data, at + 2)))
  }

  /** Where the walk goes on after a complete segment: past the declared
      length of skipped segments, frame headers and restart segments (a
      truncated restart segment leaves the offset after the marker), to
      the clamped end of a quantization table segment, and just past the
      marker of anything else. */
  function Resume(data: seq<byte>, at: nat): (next: nat)
    requires SegmentComplete(data, at)
    ensures at + 2 <= next
  {
    var code, o := data[at + 1], at + 2;
    if code == JFIF || code == CMT || code == DHT || code == SOF0 then o + Be16(data, o)
    else if code == DQT then DqtEnd(data, o)
    else if code == DRI && o + 4 <= |data| then o + Be16(data, o)
    else o
  }

  /** A scan header marker at `at` whose declared segment ends inside the
      buffer. */
  predicate ScanHeaderAt(data: seq<byte>, at: nat)
  {
    && at + 4 <= |data|
    && data[at] == Start && data[at + 1] == SOS
    && at + 2 + Be16(data, at + 2) <= |data|
  }

  /** Where the scan data starts behind the scan header at `at`. */
  function ScanStart(data: seq<byte>, at: nat): (s: nat)
    requires ScanHeaderAt(data, at)
    ensures s <= |data|
  {
    at + 2 + Be16(data, at + 2)
  }

  /** The code of the marker at `starts[k]`. */
  function CodeAt(data: seq<byte>, starts: seq<nat>, k: nat): (code: byte)
    requires k < |starts| && starts[k] + 2 <= |data|
  {
    data[starts[k] + 1]
  }

  /** The markers start at `starts`: complete segments, then a scan header;
      the walk meets no other 0xFF on the way; the frame header at index
      `sof` is the only one, and some segment holds quantization tables. */
  predicate Layout(data: seq<byte>, starts: seq<nat>, sof: nat)
  {
    && sof + 1 < |starts|
    && NoStartIn(data, 0, starts[0])
    && (forall k | 0 <= k < |starts| - 1 ::
          && SegmentComplete(data, starts[k])
          && Resume(data, starts[k]) <= starts[k + 1]
          && NoStartIn(data, Resume(data, starts[k]), starts[k + 1]))
    && ScanHeaderAt(data, starts[|starts| - 1])
    && CodeAt(data, starts, sof) == SOF0
    && (forall k | 0 <= k < |starts| - 1 && k != sof :: CodeAt(data, starts, k) != SOF0)
    && (exists k | 0 <= k < |starts| - 1 :: CodeAt(data, starts, k) == DQT)
  }

  /** Some segment before index `k` holds quantization tables. */
  predicate TablesBefore(data: seq<byte>, starts: seq<nat>, k: nat)
    requires k <= |starts| && forall j | 0 <= j < k :: starts[j] + 2 <= |data|
  {
    exists j | 0 <= j < k :: CodeAt(data, starts, j) == DQT
  }

  /** Some segment before index `k` is a complete restart segment with a
      non-zero interval. */
  predicate RestartBefore(data: seq<byte>, starts: seq<nat>, k: nat)
    requires k <= |starts| && forall j | 0 <= j < k :: starts[j] + 2 <= |data|
  {
    exists j | 0 <= j < k :: CodeAt(data, starts, j) == DRI && RestartEnabled(data, starts[j] + 2)
  }

  /** The parser's block dimensions and type are those of the frame header
      whose length field is at `o`. */
  predicate FrameFields(data: seq<byte>, o: nat, st: ParserState)
  {
    && o + 17 <= |data|
    && st.width == FrameWidth(data, o) / 8
    && st.height == FrameHeight(data, o) / 8
    && st.typeCode == SamplingType(data, o)
  }

  /** From an offset with no 0xFF before the marker at `at`, the marker
      scan finds that marker. */
  lemma ScanFinds(data: seq<byte>, p: nat, at: nat)
    requires p <= at && at + 2 <= |data| && data[at] == Start
    requires NoStartIn(data, p, at)
    ensures ScanMarker(data, p) == Hit(data[at + 1], at + 2)
  {
    var r := ScanMarker(data, p);
    assert !NoStartIn(data, p, |data| - 1) by {
      assert data[at] == Start;
    }
    assert r.next - 2 == at by {
      assert NoStartIn(data, p, r.next - 2);
      assert data[at] == Start;
      assert data[r.next - 2] == Start;
    }
  }

  /** One iteration over a complete segment: the walk resumes where the
      segment says, records what it found, and stores the frame header's
      fields; no other segment touches them. */
  lemma StepSegment(data: seq<byte>, w: Walk, at: nat)
    requires WalkInv(data, w) && !w.badSof && !w.sosFound
    requires w.offset <= at && NoStartIn(data, w.offset, at)
    requires SegmentComplete(data, at)
    requires data[at + 1] == SOF0 ==> !w.sofFound
    ensures Step(data, w).Ok?
    ensures var w1 := Step(data, w).value;
            && w1.offset == Resume(data, at)
            && !w1.badSof && !w1.sosFound
            && (w1.sofFound <==> w.sofFound || data[at + 1] == SOF0)
            && (w1.dqtFound <==> w.dqtFound || data[at + 1] == DQT)
            && (w1.driFound <==> w.driFound || (data[at + 1] == DRI && RestartEnabled(data, at + 2)))
            && (data[at + 1] == SOF0 ==> FrameFields(data, at + 2, w1.st))
            && (data[at + 1] != SOF0 ==>
                  w1.st.width == w.st.width && w1.st.height == w.st.height && w1.st.typeCode == w.st.typeCode)
  {
    ScanFinds(data, w.offset, at);
    var code, o := data[at + 1], at + 2;
    if code == DQT {
      ReadDqtFaultIff(data, w.st, o);
    }
  }

  /** An iteration that neither faults nor rejects a frame header hands
      the walk on to the next one. */
  lemma LoopAdvances(data: seq<byte>, w: Walk)
    requires |data| <= MaxBuffer
    requires WalkInv(data, w) && !w.badSof && !w.sosFound && w.offset < |data|
    requires Step(data, w).Ok? && !Step(data, w).value.badSof
    ensures ParseLoop(data, w) == ParseLoop(data, Step(data, w).value)
  {
  }

  /** The last iteration: the scan header ends the walk with the header
      size its length field declares. */
  lemma StepScan(data: seq<byte>, w: Walk, at: nat)
    requires |data| <= MaxBuffer
    requires WalkInv(data, w) && !w.badSof && !w.sosFound
    requires w.offset <= at && NoStartIn(data, w.offset, at)
    requires ScanHeaderAt(data, at)
    ensures ParseLoop(data, w) == Ok(w.(offset := at + 2, sosFound := true, headerSize := ScanStart(data, at)))
  {
    ScanFinds(data, w.offset, at);
  }

  /** What `Layout` says about one segment before the scan header. */
  lemma LayoutSegment(data: seq<byte>, starts: seq<nat>, sof: nat, k: nat)
    requires Layout(data, starts, sof) && k + 1 < |starts|
    ensures SegmentComplete(data, starts[k])
    ensures Resume(data, starts[k]) <= starts[k + 1] && NoStartIn(data, Resume(data, starts[k]), starts[k + 1])
    ensures CodeAt(data, starts, k) == SOF0 <==> k == sof
  {
  }

  /** The facts about the segments before `k + 1` are those before `k`
      and the one at `k`. */
  lemma BeforeStep(data: seq<byte>, starts: seq<nat>, k: nat)
    requires k < |starts| && forall j | 0 <= j <= k :: starts[j] + 2 <= |data|
    ensures TablesBefore(data, starts, k + 1) <==> TablesBefore(data, starts, k) || CodeAt(data, starts, k) == DQT
    ensures RestartBefore(data, starts, k + 1) <==>
            RestartBefore(data, starts, k) || (CodeAt(data, starts, k) == DRI && RestartEnabled(data, starts[k] + 2))
  {
  }

  /** The walk is about to look for the marker of segment `k`, having
      recorded exactly what the segments before it hold. */
  ghost predicate WalkAt(data: seq<byte>, starts: seq<nat>, sof: nat, k: nat, w: Walk)
    requires Layout(data, starts, sof) && k < |starts|
  {
    && WalkInv(data, w) && !w.badSof && !w.sosFound
    && w.offset <= starts[k] && NoStartIn(data, w.offset, starts[k])
    && (w.sofFound <==> sof < k)
    && (sof < k ==> FrameFields(data, starts[sof] + 2, w.st))
    && (w.dqtFound <==> TablesBefore(data, starts, k))
    && (w.driFound <==> RestartBefore(data, starts, k))
  }

  /** One segment further: the iteration over segment `k` leaves the walk
      at segment `k + 1`. */
  lemma WalkAdvances(data: seq<byte>, starts: seq<nat>, sof: nat, k: nat, w: Walk)
    requires |data| <= MaxBuffer && Layout(data, starts, sof)
    requires k + 1 < |starts| && WalkAt(data, starts, sof, k, w)
    ensures w.offset < |data|
    ensures Step(data, w).Ok? && WalkAt(data, starts, sof, k + 1, Step(data, w).value)
  {
    StepResumes(data, starts, sof, k, w);
    StepKeepsFrame(data, starts, sof, k, w);
    StepRecordsFlags(data, starts, sof, k, w);
    WalkAtNext(data, starts, sof, k, Step(data, w).value);
  }

  /** The iteration over segment `k` resumes after it, and has seen the
      frame header once it has passed index `sof`. */
  lemma StepResumes(data: seq<byte>, starts: seq<nat>, sof: nat, k: nat, w: Walk)
    requires Layout(data, starts, sof)
    requires k + 1 < |starts| && WalkAt(data, starts, sof, k, w)
    ensures w.offset < |data| && Step(data, w).Ok?
    ensures var w1 := Step(data, w).value;
            && WalkInv(data, w1) && !w1.badSof && !w1.sosFound
            && w1.offset == Resume(data, starts[k])
            && (w1.sofFound <==> sof < k + 1)
  {
    LayoutSegment(data, starts, sof, k);
    StepSegment(data, w, starts[k]);
  }

  /** The iteration over segment `k` stores the frame header's fields when
      it is the frame header, and keeps them stored afterwards. */
  lemma StepKeepsFrame(data: seq<byte>, starts: seq<nat>, sof: nat, k: nat, w: Walk)
    requires Layout(data, starts, sof)
    requires k + 1 < |starts| && WalkAt(data, starts, sof, k, w)
    ensures w.offset < |data| && Step(data, w).Ok?
    ensures sof < k + 1 ==> FrameFields(data, starts[sof] + 2, Step(data, w).value.st)
  {
    LayoutSegment(data, starts, sof, k);
    StepSegment(data, w, starts[k]);
    if sof < k {
      FrameFieldsKept(data, starts[sof] + 2, w.st, Step(data, w).value.st);
    }
  }

  /** The iteration over segment `k` records the tables and restart
      segments seen so far. */
  lemma StepRecordsFlags(data: seq<byte>, starts: seq<nat>, sof: nat, k: nat, w: Walk)
    requires Layout(data, starts, sof)
    requires k + 1 < |starts| && WalkAt(data, starts, sof, k, w)
    ensures w.offset < |data| && Step(data, w).Ok?
    ensures var w1 := Step(data, w).value;
            && (w1.dqtFound <==> TablesBefore(data, starts, k + 1))
            && (w1.driFound <==> RestartBefore(data, starts, k + 1))
  {
    LayoutSegment(data, starts, sof, k);
    StepSegment(data, w, starts[k]);
    BeforeStep(data, starts, k);
  }

  /** The frame header's fields stay stored while later segments leave the
      dimensions and type alone. */
  lemma FrameFieldsKept(data: seq<byte>, o: nat, st: ParserState, st1: ParserState)
    requires FrameFields(data, o, st)
    requires st1.width == st.width && st1.height == st.height && st1.typeCode == st.typeCode
    ensures FrameFields(data, o, st1)
  {
  }

  /** A walk that resumes after segment `k` with the right records is at
      segment `k + 1`. */
  lemma WalkAtNext(data: seq<byte>, starts: seq<nat>, sof: nat, k: nat, w1: Walk)
    requires Layout(data, starts, sof) && k + 1 < |starts|
    requires WalkInv(data, w1) && !w1.badSof && !w1.sosFound
    requires w1.offset == Resume(data, starts[k])
    requires (w1.sofFound <==> sof < k + 1) && (sof < k + 1 ==> FrameFields(data, starts[sof] + 2, w1.st))
    requires w1.dqtFound <==> TablesBefore(data, starts, k + 1)
    requires w1.driFound <==> RestartBefore(data, starts, k + 1)
    ensures WalkAt(data, starts, sof, k + 1, w1)
  {
    LayoutSegment(data, starts, sof, k);
  }

  /** The walk from segment `k` on: it passes the remaining complete
      segments and stops at the scan header with the frame header's fields
      stored, having seen tables, and with the restart flag set exactly
      when some restart segment enables restart markers. */
  lemma {:induction false} LayoutWalk(data: seq<byte>, starts: seq<nat>, sof: nat, k: nat, w: Walk)
    requires |data| <= MaxBuffer && Layout(data, starts, sof)
    requires k < |starts| && WalkAt(data, starts, sof, k, w)
    ensures ParseLoop(data, w).Ok?
    ensures var w2 := ParseLoop(data, w).value;
            var last := |starts| - 1;
            && !w2.badSof && w2.sofFound && w2.dqtFound
            && FrameFields(data, starts[sof] + 2, w2.st)
            && (w2.driFound <==> RestartBefore(data, starts, last))
            && w2.headerSize == ScanStart(data, starts[last])
    decreases |starts| - k
  {
    if k == |starts| - 1 {
      StepScan(data, w, starts[k]);
    } else {
      WalkAdvances(data, starts, sof, k, w);
      LoopAdvances(data, w);
      LayoutWalk(data, starts, sof, k + 1, Step(data, w).value);
    }
  }

  /** `parse` accepts every such buffer, whatever the parser held before:
      the block dimensions and sampling type are the frame header's, the
      restart flag (64) is added exactly when some restart segment has a
      non-zero interval, and the scan data is everything after the scan
      header's declared segment. */
  lemma LayoutParses(st: ParserState, data: seq<byte>, starts: seq<nat>, sof: nat)
    requires |data| <= MaxBuffer && Layout(data, starts, sof)
    ensures Parse(st, data).Ok? && Parse(st, data).value.ok
    ensures var p := Parse(st, data).value.st;
            var o, scan := starts[sof] + 2, ScanStart(data, starts[|starts| - 1]);
            && p.width == FrameWidth(data, o) / 8
            && p.height == FrameHeight(data, o) / 8
            && p.typeCode == SamplingType(data, o) + (if RestartBefore(data, starts, |starts| - 1) then 64 else 0)
            && p.scanData == Some(scan)
            && p.scanLength == |data| - scan
            && p.qFactor == st.qFactor
  {
    var w0 := Walk(ResetForParse(st), 0, false, false, false, false, 0, false);
    LayoutWalk(data, starts, sof, 0, w0);
  }

  /** The id-byte offsets of the tables a complete segment copies: the
      entry chain of a quantization table segment, nothing for the others. */
  function SegmentEntries(data: seq<byte>, at: nat): (es: seq<nat>)
    requires SegmentComplete(data, at)
    ensures forall i | 0 <= i < |es| :: TableInData(data, es[i])
  {
    if data[at + 1] == DQT then Entries(data, at + 4, EntryBytes(data, at + 2)) else []
  }

  /** The table chains of the segments before index `k`, in order. */
  function EntriesBefore(data: seq<byte>, starts: seq<nat>, k: nat): (es: seq<nat>)
    requires k <= |starts| && forall j | 0 <= j < k :: SegmentComplete(data, starts[j])
    ensures forall i | 0 <= i < |es| :: TableInData(data, es[i])
  {
    if k == 0 then [] else EntriesBefore(data, starts, k - 1) + SegmentEntries(data, starts[k - 1])
  }

  /** The table length after a complete segment when it was `len` before:
      a quantization table segment sets it from the last id byte its loop
      examines, if any. */
  function SegmentLength(data: seq<byte>, at: nat, len: uint16): (r: uint16)
    requires SegmentComplete(data, at)
  {
    if data[at + 1] != DQT then len
    else
      match LastExamined(data, at + 4, EntryBytes(data, at + 2))
      case None => len
      case Some(b) => 2 * TableSize(b)
  }

  /** The table length after the segments before index `k`, starting from
      `len0`. */
  function LengthBefore(data: seq<byte>, starts: seq<nat>, k: nat, len0: uint16): (r: uint16)
    requires k <= |starts| && forall j | 0 <= j < k :: SegmentComplete(data, starts[j])
  {
    if k == 0 then len0 else SegmentLength(data, starts[k - 1], LengthBefore(data, starts, k - 1, len0))
  }

  /** A restart segment at `at` long enough for `read_dri` to store its
      interval, zero or not. */
  predicate StoresInterval(data: seq<byte>, at: nat)
  {
    at + 6 <= |data| && data[at + 1] == DRI && Be16(data, at + 2) >= 4
  }

  /** The restart interval the segments before index `k` leave: that of
      the last restart segment that stores one, or the 0 `parse` starts
      from. */
  function IntervalBefore(data: seq<byte>, starts: seq<nat>, k: nat): (v: uint16)
    requires k <= |starts|
  {
    if k == 0 then 0
    else if StoresInterval(data, starts[k - 1]) then Be16(data, starts[k - 1] + 4)
    else IntervalBefore(data, starts, k - 1)
  }

  /** What one complete segment does to the table store, the table length
      and the restart interval: a quantization table segment copies its
      chain, a restart segment may store its interval, and nothing else
      touches them. */
  lemma StepSegmentStore(data: seq<byte>, w: Walk, at: nat)
    requires WalkInv(data, w) && !w.badSof && !w.sosFound
    requires w.offset <= at && NoStartIn(data, w.offset, at)
    requires SegmentComplete(data, at)
    requires data[at + 1] == SOF0 ==> !w.sofFound
    ensures Step(data, w).Ok?
    ensures var w1 := Step(data, w).value;
            && CopiedInOrder(data, SegmentEntries(data, at), w.st.qTables, w1.st.qTables)
            && w1.st.qTablesLength == SegmentLength(data, at, w.st.qTablesLength)
            && w1.st.restartInterval == (if StoresInterval(data, at) then Be16(data, at + 4) else w.st.restartInterval)
  {
    ScanFinds(data, w.offset, at);
    if data[at + 1] == DQT {
      StepTablesStore(data, w, at);
    } else {
      StepOtherStore(data, w, at);
    }
  }

  /** A quantization table segment copies its chain into the store. */
  lemma StepTablesStore(data: seq<byte>, w: Walk, at: nat)
    requires WalkInv(data, w) && !w.badSof && !w.sosFound && w.offset < |data|
    requires SegmentComplete(data, at) && data[at + 1] == DQT
    requires ScanMarker(data, w.offset) == Hit(DQT, at + 2)
    ensures Step(data, w).Ok?
    ensures var w1 := Step(data, w).value;
            && CopiedInOrder(data, SegmentEntries(data, at), w.st.qTables, w1.st.qTables)
            && w1.st.qTablesLength == SegmentLength(data, at, w.st.qTablesLength)
            && w1.st.restartInterval == w.st.restartInterval
  {
    var o := at + 2;
    ReadDqtCopies(data, w.st, o);
    var dqt := ReadDqt(data, w.st, o).value;
    assert Step(data, w) == OnQuantizationTables(data, w, o);
    assert OnQuantizationTables(data, w, o) == Ok(w.(st := dqt.st, offset := dqt.next, dqtFound := true));
  }

  /** Any other complete segment leaves the store and the table length
      alone, and only a restart segment stores an interval. */
  lemma StepOtherStore(data: seq<byte>, w: Walk, at: nat)
    requires WalkInv(data, w) && !w.badSof && !w.sosFound && w.offset < |data|
    requires SegmentComplete(data, at) && data[at + 1] != DQT
    requires data[at + 1] == SOF0 ==> !w.sofFound
    requires ScanMarker(data, w.offset) == Hit(data[at + 1], at + 2)
    ensures Step(data, w).Ok?
    ensures var w1 := Step(data, w).value;
            && w1.st.qTables == w.st.qTables
            && w1.st.qTablesLength == w.st.qTablesLength
            && w1.st.restartInterval == (if StoresInterval(data, at) then Be16(data, at + 4) else w.st.restartInterval)
  {
  }

  /** The parser's store, table length and interval are what the segments
      before index `k` leave, starting from `st0`. */
  ghost predicate StoreAt(data: seq<byte>, starts: seq<nat>, k: nat, st0: ParserState, st: ParserState)
    requires k <= |starts| && forall j | 0 <= j < k :: SegmentComplete(data, starts[j])
  {
    && CopiedInOrder(data, EntriesBefore(data, starts, k), st0.qTables, st.qTables)
    && st.qTablesLength == LengthBefore(data, starts, k, st0.qTablesLength)
    && st.restartInterval == IntervalBefore(data, starts, k)
  }

  /** The store, table length and interval after segment `k` are those
      before it, followed by what segment `k` does. */
  lemma StoreExtends(data: seq<byte>, starts: seq<nat>, k: nat, st0: ParserState, st: ParserState, st1: ParserState)
    requires k < |starts| && forall j | 0 <= j <= k :: SegmentComplete(data, starts[j])
    requires StoreAt(data, starts, k, st0, st)
    requires CopiedInOrder(data, SegmentEntries(data, starts[k]), st.qTables, st1.qTables)
    requires st1.qTablesLength == SegmentLength(data, starts[k], st.qTablesLength)
    requires st1.restartInterval ==
             (if StoresInterval(data, starts[k]) then Be16(data, starts[k] + 4) else st.restartInterval)
    ensures StoreAt(data, starts, k + 1, st0, st1)
  {
    CopiedInOrderAppend(data, EntriesBefore(data, starts, k), SegmentEntries(data, starts[k]),
                        st0.qTables, st.qTables, st1.qTables);
  }

  /** One segment further, the store, table length and interval follow
      the segment at `k`. */
  lemma StoreAdvances(data: seq<byte>, starts: seq<nat>, k: nat, w: Walk, st0: ParserState)
    requires WalkInv(data, w) && !w.badSof && !w.sosFound
    requires k < |starts| && forall j | 0 <= j <= k :: SegmentComplete(data, starts[j])
    requires SegmentComplete(data, starts[k])
    requires w.offset <= starts[k] && NoStartIn(data, w.offset, starts[k])
    requires data[starts[k] + 1] == SOF0 ==> !w.sofFound
    requires StoreAt(data, starts, k, st0, w.st)
    ensures Step(data, w).Ok? && StoreAt(data, starts, k + 1, st0, Step(data, w).value.st)
  {
    StepSegmentStore(data, w, starts[k]);
    StoreExtends(data, starts, k, st0, w.st, Step(data, w).value.st);
  }

  /** The walk from segment `k` on keeps the store, table length and
      interval in step with the segments it passes. */
  lemma {:induction false} LayoutStore(data: seq<byte>, starts: seq<nat>, sof: nat, k: nat, w: Walk, st0: ParserState)
    requires |data| <= MaxBuffer && Layout(data, starts, sof)
    requires k < |starts| && WalkAt(data, starts, sof, k, w)
    requires forall j | 0 <= j < |starts| - 1 :: SegmentComplete(data, starts[j])
    requires StoreAt(data, starts, k, st0, w.st)
    ensures ParseLoop(data, w).Ok?
    ensures StoreAt(data, starts, |starts| - 1, st0, ParseLoop(data, w).value.st)
    decreases |starts| - k
  {
    if k == |starts| - 1 {
      StepScan(data, w, starts[k]);
    } else {
      WalkAdvances(data, starts, sof, k, w);
      LoopAdvances(data, w);
      LayoutSegment(data, starts, sof, k);
      StoreAdvances(data, starts, k, w, st0);
      LayoutStore(data, starts, sof, k + 1, Step(data, w).value, st0);
    }
  }

  /** Every segment before the scan header is complete. */
  lemma LayoutComplete(data: seq<byte>, starts: seq<nat>, sof: nat)
    requires Layout(data, starts, sof)
    ensures forall j | 0 <= j < |starts| - 1 :: SegmentComplete(data, starts[j])
  {
  }

  /** Before any segment, the reset state holds the store and table length
      it started with and no interval. */
  lemma StoreAtStart(data: seq<byte>, starts: seq<nat>, st: ParserState)
    ensures StoreAt(data, starts, 0, st, ResetForParse(st))
  {
    assert forall i | 0 <= i < QStoreSize :: !Covered(data, [], i);
  }

  /** `parse` takes the store, table length and interval from its walk. */
  lemma ParseKeepsStore(st: ParserState, data: seq<byte>)
    requires |data| <= MaxBuffer && Parse(st, data).Ok?
    ensures var w0 := Walk(ResetForParse(st), 0, false, false, false, false, 0, false);
            && ParseLoop(data, w0).Ok?
            && var p, q := Parse(st, data).value.st, ParseLoop(data, w0).value.st;
            && p.qTables == q.qTables && p.qTablesLength == q.qTablesLength
            && p.restartInterval == q.restartInterval
  {
  }

  /** On such a buffer `parse` leaves the table store as the layout's
      table segments copy it, in order, over the store it started with: a
      byte no table covers keeps its value, and a covered byte holds the
      last covering table's byte.  The table length is set by the last id
      byte a table loop examined, and the interval is that of the last
      restart segment long enough to store one, or 0. */
  lemma LayoutParsesStore(st: ParserState, data: seq<byte>, starts: seq<nat>, sof: nat)
    requires |data| <= MaxBuffer && Layout(data, starts, sof)
    ensures Parse(st, data).Ok?
    ensures var p, last := Parse(st, data).value.st, |starts| - 1;
            && CopiedInOrder(data, EntriesBefore(data, starts, last), st.qTables, p.qTables)
            && p.qTablesLength == LengthBefore(data, starts, last, st.qTablesLength)
            && p.restartInterval == IntervalBefore(data, starts, last)
  {
    var w0 := Walk(ResetForParse(st), 0, false, false, false, false, 0, false);
    LayoutParses(st, data, starts, sof);
    LayoutComplete(data, starts, sof);
    StoreAtStart(data, starts, st);
    LayoutStore(data, starts, sof, 0, w0, st);
    ParseKeepsStore(st, data);
  }
}

=== FILE: jpeg_marker.dfy ===
/** JPEG segment markers (ITU-T T.81, Annex B) and the parser's forward scan
    for the next one (`scan_jpeg_marker`, jpeg_stream.cpp:475-490). */
module JpegMarker {
  import opened Bytes

  /** Every marker is this byte followed by the marker code. */
  const Start: byte := 0xFF

  const SOI: byte := 0xD8
  const JFIF: byte := 0xE0
  const CMT: byte := 0xFE
  const DQT: byte := 0xDB
  /** Baseline start-of-frame; the other SOFn codes are not recognised. */
  const SOF0: byte := 0xC0
  const DHT: byte := 0xC4
  const SOS: byte := 0xDA
  const EOI: byte := 0xD9
  const DRI: byte := 0xDD

  /** What a marker scan reports: the marker code and the offset just past it. */
  datatype Hit = Hit(marker: byte, next: nat)

  /** No start byte in `data[from..to]`. */
  predicate NoStartIn(data: seq<byte>, from: nat, to: int)
  {
    forall i | from <= i < to && i < |data| :: data[i] != Start
  }

  /** The marker `m` ends at `at`: `data[at-2..at]` is `FF m`. */
  predicate MarkerAt(data: seq<byte>, at: nat, m: byte)
  {
    2 <= at <= |data| && data[at - 2] == Start && data[at - 1] == m
  }

  /** Steps over bytes until a start byte and returns the byte after it.  A
      start byte in the last position, or none at all, yields EOI with the
      offset at the end of the buffer, just as the source's `while` leaves
      `*offset == size`. */
  function ScanMarker(data: seq<byte>, offset: nat): (r: Hit)
    requires offset < |data|
    ensures offset < r.next <= |data|
    ensures NoStartIn(data, offset, |data| - 1) ==> r == Hit(EOI, |data|)
    ensures !NoStartIn(data, offset, |data| - 1) ==>
              && offset + 2 <= r.next
              && MarkerAt(data, r.next, r.marker)
              && NoStartIn(data, offset, r.next - 2)
    ensures MarkerAt(data, r.next, r.marker) || r == Hit(EOI, |data|)
    decreases |data| - offset
  {
    if data[offset] == Start then
      if offset + 1 < |data| then Hit(data[offset + 1], offset + 2) else Hit(EOI, |data|)
    else if offset + 1 < |data| then
      ScanMarker(data, offset + 1)
    else
      Hit(EOI, |data|)
  }

  /** A start byte in the final position is not a marker: the scan runs off
      the end and reports EOI, and so does a buffer holding no start byte. */
  lemma ScanMarkerAtEnd(data: seq<byte>)
    requires |data| >= 1 && data[|data| - 1] == Start
    requires NoStartIn(data, 0, |data| - 1)
    ensures ScanMarker(data, 0) == Hit(EOI, |data|)
  {
  }

  /** The scan can stop exactly at the end of the buffer with a real marker:
      `FF E0` gives the JFIF marker with the offset at `size`, where the
      source's unchecked segment-length read (jpeg_stream.cpp:719) would read
      the two bytes past the end. */
  lemma ScanMarkerCanEndAtSize()
    ensures ScanMarker([0xFF, 0xE0], 0) == Hit(JFIF, 2)
  {
  }
}

=== FILE: jpeg_parse.dfy ===
/** `jpeg_frame_parser::parse` (jpeg_stream.cpp:696-781): the marker walk
    that collects the RFC 2435 header fields and locates the scan data. */
module JpegParse {
  import opened Bytes
  import opened Outcomes
  import opened JpegMarker
  import opened JpegState
  import opened JpegSof
  import opened JpegDqt
  import opened JpegDri

  /** The local variables of `parse` between two iterations of its loop;
      `badSof` records the `goto invalid_format` exit. */
  datatype Walk = Walk(
    st: ParserState,
    offset: nat,
    sofFound: bool,
    dqtFound: bool,
    driFound: bool,
    sosFound: bool,
    headerSize: nat,
    badSof: bool)

  /** An accepted baseline frame header ends its marker at `at` and the
      parser's block dimensions and sampling type are the ones it declares. */
  predicate Describes(data: seq<byte>, at: nat, st: ParserState)
  {
    && MarkerAt(data, at, SOF0)
    && FrameHeaderAccepted(data, at)
    && st.width == FrameWidth(data, at) / 8
    && st.height == FrameHeight(data, at) / 8
    && st.typeCode % 64 == SamplingType(data, at)
  }

  /** A restart segment with a non-zero interval ends its marker at `at`. */
  predicate RestartSegment(data: seq<byte>, at: nat)
  {
    MarkerAt(data, at, DRI) && RestartEnabled(data, at)
  }

  /** `v` is 0 or the interval of some complete restart segment. */
  ghost predicate IntervalFromData(data: seq<byte>, v: uint16)
  {
    v == 0 ||
    exists at: nat :: MarkerAt(data, at, DRI) && at + 4 <= |data| && Be16(data, at) >= 4 && Be16(data, at + 2) == v
  }

  /** A scan header ends its marker at `at` and declares a segment ending at
      `headerEnd`, where the entropy-coded data starts. */
  predicate ScanHeaderEndsAt(data: seq<byte>, at: nat, headerEnd: nat)
  {
    MarkerAt(data, at, SOS) && at + 2 <= |data| && headerEnd == at + Be16(data, at)
  }

  /** What the walk knows about the buffer at every iteration. */
  ghost predicate WalkInv(data: seq<byte>, w: Walk)
  {
    && w.st.precision == 0
    && w.st.scanData == None && w.st.scanLength == 0
    && w.st.typeCode <= 1
    && (w.sofFound ==> exists at :: Describes(data, at, w.st))
    && (!w.sofFound && !w.badSof ==> w.st.width == 0 && w.st.height == 0 && w.st.typeCode == 0)
    && (w.dqtFound ==> exists at :: MarkerAt(data, at, DQT))
    && (w.driFound ==> exists at :: RestartSegment(data, at))
    && IntervalFromData(data, w.st.restartInterval)
    && (w.sosFound ==> exists at :: ScanHeaderEndsAt(data, at, w.headerSize))
    && (!w.sosFound ==> w.headerSize == 0)
  }

  /** `w2` is a walk state reachable from `w` by one or more iterations
      that resumed at or after `from`. */
  ghost predicate Follows(data: seq<byte>, w: Walk, w2: Walk, from: nat)
  {
    && WalkInv(data, w2)
    && w2.offset >= from
    && w2.st.qFactor == w.st.qFactor
    && (!w2.dqtFound ==> w2.st.qTables == w.st.qTables && w2.st.qTablesLength == w.st.qTablesLength && !w.dqtFound)
    && (w.sofFound ==> w2.sofFound)
  }

  /** The baseline frame header case: a second one trips the source's
      assert, a rejected one ends the walk (`goto invalid_format`). */
  function OnFrameHeader(data: seq<byte>, w: Walk, o: nat): (r: Outcome<Walk>)
    requires WalkInv(data, w) && !w.badSof && !w.sosFound
    requires MarkerAt(data, o, SOF0)
    ensures r.Ok? ==> Follows(data, w, r.value, o)
    ensures r.Ok? ==> r.value.badSof || r.value.sofFound
    ensures r.Unsafe? ==> r.fault == SecondFrameHeader(o)
  {
    if w.sofFound then Unsafe(SecondFrameHeader(o))
    else
      var sof := ReadSof(data, w.st, o);
      if !sof.ok then Ok(w.(st := sof.st, offset := sof.next, badSof := true))
      else
        assert Describes(data, o, sof.st);
        Ok(w.(st := sof.st, offset := sof.next, sofFound := true))
  }

  /** The quantization table case: `dqtFound` is set whatever the reader
      makes of the segment. */
  function OnQuantizationTables(data: seq<byte>, w: Walk, o: nat): (r: Outcome<Walk>)
    requires WalkInv(data, w) && !w.badSof && !w.sosFound
    requires MarkerAt(data, o, DQT)
    ensures r.Ok? ==> Follows(data, w, r.value, o) && r.value.dqtFound && !r.value.badSof
    ensures r.Unsafe? ==> r.fault.QTableOverflow?
  {
    match ReadDqt(data, w.st, o)
    case Unsafe(f) => Unsafe(f)
    case Ok(dqt) =>
      assert forall at | Describes(data, at, w.st) :: Describes(data, at, dqt.st);
      Ok(w.(st := dqt.st, offset := dqt.next, dqtFound := true))
  }

  /** A second frame header faults; otherwise the walk takes the reader's
      state and offset, and the reader's verdict decides whether the walk
      found a frame header or ends on a rejected one. */
  lemma OnFrameHeaderCases(data: seq<byte>, w: Walk, o: nat)
    requires WalkInv(data, w) && !w.badSof && !w.sosFound
    requires MarkerAt(data, o, SOF0)
    ensures OnFrameHeader(data, w, o).Unsafe? <==> w.sofFound
    ensures var r, sof := OnFrameHeader(data, w, o), ReadSof(data, w.st, o);
            r.Ok? ==> && r.value.st == sof.st && r.value.offset == sof.next
                      && (r.value.sofFound <==> sof.ok) && (r.value.badSof <==> !sof.ok)
  {
  }

  /** The table case faults exactly when the reader does, and otherwise
      takes the reader's state and offset. */
  lemma OnQuantizationTablesCases(data: seq<byte>, w: Walk, o: nat)
    requires WalkInv(data, w) && !w.badSof && !w.sosFound
    requires MarkerAt(data, o, DQT)
    ensures OnQuantizationTables(data, w, o).Unsafe? <==> ReadDqt(data, w.st, o).Unsafe?
    ensures var r, dqt := OnQuantizationTables(data, w, o), ReadDqt(data, w.st, o);
            r.Ok? ==> r.value.st == dqt.value.st && r.value.offset == dqt.value.next
  {
  }

  /** The restart interval case: the interval is stored whatever its value,
      but only a non-zero one sets `driFound`. */
  function OnRestartInterval(data: seq<byte>, w: Walk, o: nat): (r: Walk)
    requires WalkInv(data, w) && !w.badSof && !w.sosFound
    requires MarkerAt(data, o, DRI)
    ensures Follows(data, w, r, o) && !r.badSof && !r.sosFound
    ensures r.driFound <==> w.driFound || RestartEnabled(data, o)
  {
    var dri := ReadDri(data, w.st, o);
    assert forall at | Describes(data, at, w.st) :: Describes(data, at, dri.st);
    assert dri.ok ==> RestartSegment(data, o);
    assert IntervalFromData(data, dri.st.restartInterval) by {
      if dri.st.restartInterval != w.st.restartInterval {
        assert MarkerAt(data, o, DRI) && o + 4 <= |data| && Be16(data, o) >= 4;
      }
    }
    w.(st := dri.st, offset := dri.next, driFound := w.driFound || dri.ok)
  }

  /** The scan header case: the header section ends where the scan
      segment's declared length ends; the length itself is read without a
      bounds check in the source. */
  function OnScanHeader(data: seq<byte>, w: Walk, o: nat): (r: Outcome<Walk>)
    requires WalkInv(data, w) && !w.badSof && !w.sosFound
    requires MarkerAt(data, o, SOS)
    ensures r.Ok? ==> Follows(data, w, r.value, o) && r.value.sosFound && !r.value.badSof
    ensures r.Ok? ==> o + 2 <= |data| && r.value.headerSize == o + Be16(data, o)
    ensures r.Unsafe? <==> o + 2 > |data|
    ensures r.Unsafe? ==> r.fault == LengthFieldPastEnd(o)
  {
    if o + 2 > |data| then Unsafe(LengthFieldPastEnd(o))
    else
      assert ScanHeaderEndsAt(data, o, o + Be16(data, o));
      Ok(w.(offset := o, sosFound := true, headerSize := o + Be16(data, o)))
  }

  /** The faults the walk itself can run into. */
  predicate WalkFault(f: Fault)
  {
    f.LengthFieldPastEnd? || f.QTableOverflow? || f.SecondFrameHeader?
  }

  /** One iteration of the loop body: find the next marker and dispatch on
      it.  JFIF, comment and Huffman segments are skipped by their declared
      length; SOI, EOI, non-baseline frame headers and unknown markers are
      stepped over. */
  function Step(data: seq<byte>, w: Walk): (r: Outcome<Walk>)
    requires WalkInv(data, w) && !w.badSof && !w.sosFound && w.offset < |data|
    ensures r.Ok? ==> Follows(data, w, r.value, w.offset + 1)
    ensures r.Unsafe? ==> WalkFault(r.fault)
  {
    var hit := ScanMarker(data, w.offset);
    var o := hit.next;
    if hit.marker == JFIF || hit.marker == CMT || hit.marker == DHT then
      if o + 2 > |data| then Unsafe(LengthFieldPastEnd(o))
      else Ok(w.(offset := o + Be16(data, o)))
    else if hit.marker == SOF0 then OnFrameHeader(data, w, o)
    else if hit.marker == DQT then OnQuantizationTables(data, w, o)
    else if hit.marker == SOS then OnScanHeader(data, w, o)
    else if hit.marker == DRI then Ok(OnRestartInterval(data, w, o))
    else Ok(w.(offset := o))
  }

  /** The `while ((sosFound == 0) && (offset < size))` loop, plus the
      `goto invalid_format` exit. */
  function ParseLoop(data: seq<byte>, w: Walk): (r: Outcome<Walk>)
    requires |data| <= MaxBuffer
    requires WalkInv(data, w) && !w.badSof
    ensures r.Ok? ==> Follows(data, w, r.value, w.offset)
    ensures r.Ok? ==> r.value.badSof || r.value.sosFound || r.value.offset >= |data|
    ensures r.Unsafe? ==> WalkFault(r.fault)
    decreases |data| - w.offset
  {
    if w.sosFound || w.offset >= |data| then Ok(w)
    else
      match Step(data, w)
      case Unsafe(f) => Unsafe(f)
      case Ok(w1) => if w1.badSof then Ok(w1) else ParseLoop(data, w1)
  }

  datatype Parsed = Parsed(ok: bool, st: ParserState)

  /** What a successful parse guarantees about the buffer: the scan view
      and the header before it partition the buffer; the block dimensions
      and sampling type come from an accepted frame header; a quantization
      table marker was present; the restart flag is only set when a restart
      segment with a non-zero interval exists; and a non-zero header size
      is the end of a scan header. */
  ghost predicate Accepted(data: seq<byte>, p: ParserState)
  {
    && p.scanData.Some?
    && p.scanData.value + p.scanLength == |data|
    && 1 <= p.width && 1 <= p.height
    && p.typeCode in {0, 1, 64, 65}
    && (exists at :: Describes(data, at, p))
    && (exists at :: MarkerAt(data, at, DQT))
    && (p.typeCode >= 64 ==> exists at :: RestartSegment(data, at))
    && (p.scanData.value != 0 ==> exists at :: ScanHeaderEndsAt(data, at, p.scanData.value))
  }

  /** The state `parse` resets before walking (jpeg_stream.cpp:698-705):
      the quality factor and the table store are kept. */
  function ResetForParse(st: ParserState): (r: ParserState)
    ensures r.qFactor == st.qFactor && r.qTables == st.qTables && r.qTablesLength == st.qTablesLength
    ensures r.width == 0 && r.height == 0 && r.typeCode == 0 && r.precision == 0
    ensures r.restartInterval == 0 && r.scanData == None && r.scanLength == 0
  {
    st.(width := 0, height := 0, typeCode := 0, precision := 0, restartInterval := 0,
        scanData := None, scanLength := 0)
  }

  /** A walk that found a frame header and tables, and ends inside the
      buffer, yields a state `parse` may accept. */
  lemma WalkAccepted(data: seq<byte>, w: Walk, p: ParserState)
    requires WalkInv(data, w) && !w.badSof && w.sofFound && w.dqtFound
    requires w.st.width != 0 && w.st.height != 0 && w.headerSize <= |data|
    requires p == w.st.(scanData := Some(w.headerSize), scanLength := |data| - w.headerSize,
                        typeCode := if w.driFound then w.st.typeCode + 64 else w.st.typeCode)
    ensures Accepted(data, p)
  {
    assert p.typeCode % 64 == w.st.typeCode % 64 by {
      assert w.st.typeCode <= 1;
    }
    var at :| Describes(data, at, w.st);
    assert Describes(data, at, p);
  }

  /** `parse` on the whole buffer; `ok` is the return value 0. */
  function Parse(st: ParserState, data: seq<byte>): (r: Outcome<Parsed>)
    requires |data| <= MaxBuffer
    ensures r.Ok? && r.value.ok ==> Accepted(data, r.value.st)
    ensures r.Ok? && !r.value.ok ==> r.value.st.scanData == None && r.value.st.scanLength == 0
    ensures r.Ok? ==> r.value.st.precision == 0 && r.value.st.qFactor == st.qFactor
    ensures r.Ok? ==> IntervalFromData(data, r.value.st.restartInterval)
    ensures r.Ok? && r.value.st.qTables != st.qTables ==> exists at :: MarkerAt(data, at, DQT)
  {
    var w0 := Walk(ResetForParse(st), 0, false, false, false, false, 0, false);
    match ParseLoop(data, w0)
    case Unsafe(f) => Unsafe(f)
    case Ok(w) =>
      if w.badSof || !w.dqtFound || !w.sofFound || w.st.width == 0 || w.st.height == 0 then
        Ok(Parsed(false, w.st))
      else if w.headerSize > |data| then
        Unsafe(ScanPastEnd(w.headerSize))
      else
        var p := w.st.(scanData := Some(w.headerSize), scanLength := |data| - w.headerSize,
                       typeCode := if w.driFound then w.st.typeCode + 64 else w.st.typeCode);
        WalkAccepted(data, w, p);
        Ok(Parsed(true, p))
  }

  /** The only faults of `parse`: those of the walk, and a scan header
      whose declared end lies past the buffer. */
  lemma ParseFaults(st: ParserState, data: seq<byte>)
    requires |data| <= MaxBuffer
    ensures Parse(st, data).Unsafe? ==> WalkFault(Parse(st, data).fault) || Parse(st, data).fault.ScanPastEnd?
    ensures Parse(st, data).Unsafe? && Parse(st, data).fault.ScanPastEnd? ==> Parse(st, data).fault.headerEnd > |data|
  {
  }

  /** Without a byte 0xC0 there is no baseline frame header to accept. */
  lemma NoFrameHeaderNoImage(st: ParserState, data: seq<byte>)
    requires |data| <= MaxBuffer
    requires forall i | 0 <= i < |data| :: data[i] != SOF0
    ensures Parse(st, data).Ok? ==> !Parse(st, data).value.ok
  {
  }

  /** Without a byte 0xDB there is no quantization table segment, and the
      parse fails even with a complete frame header. */
  lemma NoTablesNoImage(st: ParserState, data: seq<byte>)
    requires |data| <= MaxBuffer
    requires forall i | 0 <= i < |data| :: data[i] != DQT
    ensures Parse(st, data).Ok? ==> !Parse(st, data).value.ok && Parse(st, data).value.st.qTables == st.qTables
  {
  }

  /** Without a byte 0xDD the interval stays 0 and the type carries no
      restart flag. */
  lemma NoRestartSegmentNoInterval(st: ParserState, data: seq<byte>)
    requires |data| <= MaxBuffer
    requires forall i | 0 <= i < |data| :: data[i] != DRI
    ensures Parse(st, data).Ok? ==> Parse(st, data).value.st.restartInterval == 0
    ensures Parse(st, data).Ok? && Parse(st, data).value.ok ==> Parse(st, data).value.st.typeCode < 64
  {
  }

  /** Without a byte 0xDA an accepted buffer is all scan data: the walk ran
      to the end of the buffer and the header size stayed 0. */
  lemma NoScanHeaderWholeBuffer(st: ParserState, data: seq<byte>)
    requires |data| <= MaxBuffer
    requires forall i | 0 <= i < |data| :: data[i] != SOS
    ensures Parse(st, data).Ok? && Parse(st, data).value.ok ==>
              Parse(st, data).value.st.scanData == Some(0) && Parse(st, data).value.st.scanLength == |data|
  {
  }
}

=== FILE: jpeg_sof.dfy ===
/** The baseline frame header reader `read_sof` (jpeg_stream.cpp:497-590)
    and its component-ordering pass. */
module JpegSof {
  import opened Bytes
  import opened JpegState

  /** `CompInfo` (jpeg_stream.cpp:398-403). */
  datatype Component = Component(id: byte, sampling: byte, qTable: byte)

  function ComponentAt(data: seq<byte>, at: nat): (c: Component)
    requires at + 3 <= |data|
  {
    Component(data[at], data[at + 1], data[at + 2])
  }

  /** Ids ascend from index 1 on; index 0 is outside the sorted part. */
  predicate SortedAfterFirst(s: seq<Component>)
  {
    forall i, j | 1 <= i < j < |s| :: s[i].id <= s[j].id
  }

  /** Where the inner loop `for (j = infolen; j > 1; j--)` stops: it walks
      down while the element before `j` has an id not below `id`, and never
      looks at index 0. */
  function ShiftPoint(info: seq<Component>, id: byte, j: nat): (k: nat)
    requires j <= |info|
    ensures k <= j
    ensures j >= 1 ==> k >= 1
    ensures forall i | k <= i < j :: info[i].id >= id
    ensures k > 1 ==> info[k - 1].id < id
    decreases j
  {
    if j > 1 && info[j - 1].id >= id then ShiftPoint(info, id, j - 1) else j
  }

  /** One pass of the outer loop: the elements from the stop point on move
      up by one and `elem` takes the freed slot. */
  function Insert(info: seq<Component>, elem: Component): (r: seq<Component>)
    ensures |r| == |info| + 1
    ensures |info| >= 1 ==> r[0] == info[0]
    ensures |info| >= 1 && SortedAfterFirst(info) ==> SortedAfterFirst(r)
  {
    var k := ShiftPoint(info, elem.id, |info|);
    var r := info[..k] + [elem] + info[k..];
    InsertKeepsSorted(info, elem, k);
    r
  }

  /** Insertion neither loses nor duplicates a component. */
  lemma InsertPermutes(info: seq<Component>, elem: Component)
    ensures multiset(Insert(info, elem)) == multiset(info) + multiset{elem}
  {
    var k := ShiftPoint(info, elem.id, |info|);
    assert info == info[..k] + info[k..];
  }

  /** Inserting at the stop point keeps the part after index 0 sorted. */
  lemma InsertKeepsSorted(info: seq<Component>, elem: Component, k: nat)
    requires k <= |info| && (|info| >= 1 ==> k >= 1)
    requires forall i | k <= i < |info| :: info[i].id >= elem.id
    requires k > 1 ==> info[k - 1].id < elem.id
    ensures |info| >= 1 && SortedAfterFirst(info) ==> SortedAfterFirst(info[..k] + [elem] + info[k..])
  {
  }

  /** The whole insertion loop of `read_sof` over the components in the
      order they are read.  It is a permutation that keeps the first
      component first and sorts the others by ascending id. */
  function InsertionPass(comps: seq<Component>): (r: seq<Component>)
    ensures |r| == |comps|
    ensures |comps| >= 1 ==> r[0] == comps[0]
    ensures SortedAfterFirst(r)
    decreases |comps|
  {
    if |comps| == 0 then []
    else
      var n := |comps| - 1;
      assert comps == comps[..n] + [comps[n]];
      Insert(InsertionPass(comps[..n]), comps[n])
  }

  /** The pass is a permutation of the components it reads. */
  lemma {:induction false} InsertionPassPermutes(comps: seq<Component>)
    ensures multiset(InsertionPass(comps)) == multiset(comps)
    decreases |comps|
  {
    if |comps| > 0 {
      var n := |comps| - 1;
      assert comps == comps[..n] + [comps[n]];
      InsertionPassPermutes(comps[..n]);
      InsertPermutes(InsertionPass(comps[..n]), comps[n]);
    }
  }

  /** For the three components of a frame header the pass swaps the second
      and third exactly when the third id is not above the second. */
  lemma InsertionPassOfThree(c0: Component, c1: Component, c2: Component)
    ensures InsertionPass([c0, c1, c2]) == if c1.id < c2.id then [c0, c1, c2] else [c0, c2, c1]
  {
  }

  lemma InsertionPassOfTwo(c0: Component, c1: Component)
    ensures InsertionPass([c0, c1]) == [c0, c1]
  {
  }

  /** Frame header fields, at `at` = the offset just past the marker. */
  function FrameHeight(data: seq<byte>, at: nat): (h: uint16)
    requires at + 17 <= |data|
  {
    Be16(data, at + 3)
  }

  function FrameWidth(data: seq<byte>, at: nat): (w: uint16)
    requires at + 17 <= |data|
  {
    Be16(data, at + 5)
  }

  /** Size, length, precision and dimension checks: everything `read_sof`
      tests before it stores the block dimensions. */
  predicate DimensionsAccepted(data: seq<byte>, at: nat)
  {
    && at + 17 <= |data|
    && Be16(data, at) >= 17
    && data[at + 2] == 8
    && 1 <= FrameHeight(data, at) <= 2040
    && 1 <= FrameWidth(data, at) <= 2040
  }

  /** The header `read_sof` accepts, stated on the bytes as read and
      independent of component ids: three components, the first read with
      sampling 0x21 or 0x22, the other two with 0x11 and one shared table. */
  predicate FrameHeaderAccepted(data: seq<byte>, at: nat)
  {
    && DimensionsAccepted(data, at)
    && data[at + 7] == 3
    && (data[at + 9] == 0x21 || data[at + 9] == 0x22)
    && data[at + 12] == 0x11
    && data[at + 15] == 0x11
    && data[at + 13] == data[at + 16]
  }

  /** RFC 2435 type of an accepted header: 0 for 4:2:0, 1 for 4:2:2. */
  function SamplingType(data: seq<byte>, at: nat): (t: uint8)
    requires at + 17 <= |data|
  {
    if data[at + 9] == 0x21 then 0 else 1
  }

  datatype SofRead = SofRead(ok: bool, st: ParserState, next: nat)

  /** `read_sof` reading the segment whose length field is at `offset`.
      `ok` is the source's return value 0.  The offset moves past the
      declared segment as soon as the length check passes, and the block
      dimensions and type are stored on the way, before later checks can
      still fail. */
  function ReadSof(data: seq<byte>, st: ParserState, offset: nat): (r: SofRead)
    ensures r.ok <==> FrameHeaderAccepted(data, offset)
    ensures r.next == if offset + 17 <= |data| && Be16(data, offset) >= 17
                      then offset + Be16(data, offset) else offset
    ensures r.st == st.(width := r.st.width, height := r.st.height, typeCode := r.st.typeCode)
    ensures DimensionsAccepted(data, offset) ==>
              && r.st.width == FrameWidth(data, offset) / 8
              && r.st.height == FrameHeight(data, offset) / 8
    ensures !DimensionsAccepted(data, offset) ==> r.st == st
    ensures r.ok ==> r.st.typeCode == SamplingType(data, offset)
  {
    if offset + 17 > |data| then SofRead(false, st, offset)
    else
      var length := Be16(data, offset);
      if length < 17 then SofRead(false, st, offset)
      else
        var next := offset + length;
        if data[offset + 2] != 8 then SofRead(false, st, next)
        else
          var height := Be16(data, offset + 3);
          var width := Be16(data, offset + 5);
          if height == 0 || height > 2040 || width == 0 || width > 2040 then
            SofRead(false, st, next)
          else
            var st1 := st.(width := width / 8, height := height / 8);
            if data[offset + 7] != 3 then SofRead(false, st1, next)
            else
              var c0, c1, c2 := ComponentAt(data, offset + 8), ComponentAt(data, offset + 11), ComponentAt(data, offset + 14);
              var info := InsertionPass([c0, c1, c2]);
              InsertionPassOfThree(c0, c1, c2);
              if info[0].sampling == 0x21 || info[0].sampling == 0x22 then
                var st2 := st1.(typeCode := if info[0].sampling == 0x21 then 0 else 1);
                var ok := info[1].sampling == 0x11 && info[2].sampling == 0x11 && info[1].qTable == info[2].qTable;
                SofRead(ok, st2, next)
              else
                SofRead(false, st1, next)
  }

  /** The block counts of an accepted header fit the parser's byte fields
      without truncation: each is the pixel dimension rounded down to a
      whole number of 8-pixel blocks. */
  lemma AcceptedBlocksFitByte(data: seq<byte>, st: ParserState, offset: nat)
    requires ReadSof(data, st, offset).ok
    ensures FrameWidth(data, offset) / 8 <= 255 && FrameHeight(data, offset) / 8 <= 255
    ensures var r := ReadSof(data, st, offset).st;
            && r.width * 8 <= FrameWidth(data, offset) < r.width * 8 + 8
            && r.height * 8 <= FrameHeight(data, offset) < r.height * 8 + 8
  {
  }
}

=== FILE: jpeg_state.dfy ===
/** The fields of `jpeg_frame_parser` (jpeg_stream.cpp:62-75) as one
    immutable record, its constructor and its accessors. */
module JpegState {
  import opened Bytes
  import opened Outcomes

  /** The constructor allocates `128 * 2` bytes for quantization tables. */
  const QStoreSize: nat := 256

  /** The constructor fills the table store with this byte. */
  const QStoreFill: byte := 8

  type QStore = s: seq<byte> | |s| == QStoreSize witness seq(256, _ => 0)

  /** `scanData` is the C pointer `_scandata` as an offset into the parsed
      buffer (`None` for NULL); `scanLength` is `_scandata_length`. */
  datatype ParserState = ParserState(
    width: uint8,
    height: uint8,
    typeCode: uint8,
    precision: uint8,
    qFactor: uint8,
    qTables: QStore,
    qTablesLength: uint16,
    restartInterval: uint16,
    scanData: Option<nat>,
    scanLength: nat)
  {
    /** `quantization_tables(length)`: the store and its reported length. */
    function QuantizationTables(): (r: (QStore, uint16))
    {
      (qTables, qTablesLength)
    }

    /** `set_q` (jpeg_stream.cpp:453-456). */
    function SetQ(q: uint8): (r: ParserState)
      ensures r.qFactor == q
      ensures r.(qFactor := qFactor) == this
    {
      this.(qFactor := q)
    }
  }

  /** The constructor's initial state (jpeg_stream.cpp:406-420). */
  function NewParser(): (st: ParserState)
    ensures st.width == 0 && st.height == 0 && st.typeCode == 0 && st.precision == 0
    ensures st.restartInterval == 0
  {
    ParserState(0, 0, 0, 0, 255, seq(QStoreSize, _ => QStoreFill), 0, 0, None, 0)
  }

  /** A fresh parser reports the quality sentinel 255, no tables and no scan
      data, and its whole table store holds the fill byte. */
  lemma NewParserDefaults()
    ensures NewParser().qFactor == 255
    ensures NewParser().qTablesLength == 0 && NewParser().scanLength == 0
    ensures NewParser().scanData == None
    ensures forall i | 0 <= i < QStoreSize :: NewParser().qTables[i] == QStoreFill
  {
  }
}

=== FILE: outcomes.dfy ===
/** Result wrappers shared by the whole model.

    The modelled C++ code never reports most of its internal faults: it reads
    or writes past a buffer, divides by zero, or stops in an `assert`.  The
    model makes each of these an explicit `Unsafe` outcome carrying the fault,
    so that every contract has to say when the fault happens instead of
    hiding it behind a precondition.
 */
module Outcomes {

  datatype Option<+T> = None | Some(value: T)

  /** The situations in which the source has undefined behaviour or aborts. */
  datatype Fault =
    /** a 16-bit segment length is read at `at` and `at + 1` although the
        buffer ends before `at + 2` (jpeg_stream.cpp:719 and :734) */
    | LengthFieldPastEnd(at: nat)
      /** a quantization table of `tableSize` bytes for table `id` is copied
          to `id * tableSize`, beyond the 256-byte table store (:636) */
    | QTableOverflow(id: nat, tableSize: nat)
      /** a second baseline frame header trips `assert(!sofFound)` (:722) */
    | SecondFrameHeader(at: nat)
      /** the scan segment's declared end lies past the buffer, so
          `size - jpeg_header_size` wraps around (:764) */
    | ScanPastEnd(headerEnd: nat)
      /** the frame source's constructor asserts a non-empty file (:266) */
    | EmptyImage
      /** the frame source's constructor asserts a successful parse (:269) */
    | ImageRejected
      /** `immediate_task_loop_count % max_packet_count` with a send buffer
          smaller than one payload (:833, :840) */
    | PacingDivisionByZero(sendBuffer: nat)

  datatype Outcome<+T> = Ok(value: T) | Unsafe(fault: Fault)
}

=== FILE: pacing.dfy ===
/** The send pacing of `error_aware_task_scheduler::doEventLoop`
    (jpeg_stream.cpp:818-845) and the message filter of its `SingleStep`
    (jpeg_stream.cpp:852-864).  Scheduler steps and sleeps are abstract
    actions; the socket buffer size and the number of back-to-back steps
    in each burst are inputs. */
module Pacing {
  import opened Outcomes
  import opened Arith

  /** `RTP_PAYLOAD_MAX_SIZE` of live555's multi-framed RTP sink. */
  const MaxPayload: nat := 1456

  /** `max_packet_count`: how many payloads fit the send buffer. */
  function BurstBudget(sendBuffer: nat): (m: nat)
  {
    sendBuffer / MaxPayload
  }

  datatype Action = Step | Sleep

  /** Steps `k` to `last` of a burst; after step `k` the loop sleeps unless
      `k` is a multiple of `m`. */
  function BurstFrom(m: nat, k: nat, last: nat): (r: seq<Action>)
    requires m > 0
    decreases last - k + 1
  {
    if k > last then []
    else (if k % m != 0 then [Step, Sleep] else [Step]) + BurstFrom(m, k + 1, last)
  }

  /** One burst of `n` zero-delay steps; the counter starts at 1. */
  function Burst(m: nat, n: nat): (r: seq<Action>)
    requires m > 0
    ensures n == 0 <==> r == []
    ensures n >= 1 ==> r[0] == Step
  {
    BurstFrom(m, 1, n)
  }

  function CountSteps(s: seq<Action>): (n: nat)
    ensures n <= |s|
  {
    if s == [] then 0 else (if s[0] == Step then 1 else 0) + CountSteps(s[1..])
  }

  function CountSleeps(s: seq<Action>): (n: nat)
    ensures n + CountSteps(s) == |s|
  {
    if s == [] then 0 else (if s[0] == Sleep then 1 else 0) + CountSleeps(s[1..])
  }

  lemma CountsOfConcat(a: seq<Action>, b: seq<Action>)
    ensures CountSteps(a + b) == CountSteps(a) + CountSteps(b)
    ensures CountSleeps(a + b) == CountSleeps(a) + CountSleeps(b)
  {
    if a == [] {
      assert a + b == b;
    } else {
      assert (a + b)[1..] == a[1..] + b;
      CountsOfConcat(a[1..], b);
    }
  }

  /** Going from `k - 1` to `k` adds one to the quotient exactly at the
      multiples of `m`. */
  lemma QuotientStep(k: nat, m: nat)
    requires m > 0 && k >= 1
    ensures k / m == (k - 1) / m + (if k % m == 0 then 1 else 0)
  {
    var q, r := (k - 1) / m, (k - 1) % m;
    if r + 1 == m {
      DivModUnique(k, m, q + 1, 0);
    } else {
      DivModUnique(k, m, q, r + 1);
    }
  }

  /** Steps `k` to `last` take `last - k + 1` steps and sleep after all but
      the multiples of `m`. */
  lemma {:induction false} BurstFromCounts(m: nat, k: nat, last: nat)
    requires m > 0 && k >= 1 && k <= last + 1
    ensures CountSteps(BurstFrom(m, k, last)) == last - k + 1
    ensures CountSleeps(BurstFrom(m, k, last)) == (last - k + 1) - (last / m - (k - 1) / m)
    decreases last - k + 1
  {
    if k <= last {
      var head: seq<Action> := if k % m != 0 then [Step, Sleep] else [Step];
      CountsOfConcat(head, BurstFrom(m, k + 1, last));
      BurstFromCounts(m, k + 1, last);
      QuotientStep(k, m);
    }
  }

  /** A burst of `n` steps sleeps `n - n / m` times: after every step but
      each `m`-th. */
  lemma BurstCounts(m: nat, n: nat)
    requires m > 0
    ensures CountSteps(Burst(m, n)) == n
    ensures CountSleeps(Burst(m, n)) == n - n / m
  {
    BurstFromCounts(m, 1, n);
  }

  /** The burst ends with a step and no sleep exactly when its length is a
      multiple of `m`: the sleep pattern repeats every `m` steps. */
  lemma {:induction false} BurstLastAction(m: nat, n: nat)
    requires m > 0 && n >= 1
    ensures Burst(m, n)[|Burst(m, n)| - 1] == if n % m == 0 then Step else Sleep
  {
    BurstSplit(m, 1, n);
  }

  /** A shorter burst is a prefix of a longer one: the first `k` steps of
      any burst act alike. */
  lemma {:induction false} BurstPrefix(m: nat, k: nat, n: nat)
    requires m > 0 && 1 <= k <= n
    ensures Burst(m, k) <= Burst(m, n)
    decreases n - k
  {
    if k < n {
      BurstPrefix(m, k, n - 1);
      BurstSplit(m, 1, n);
    }
  }

  /** Inside a burst of `n` steps, the actions of the `k`-th step end at
      position `|Burst(m, k)| - 1`: a sleep when `k` is not a multiple of
      `m`, otherwise the step itself with no sleep after it. */
  lemma BurstStepAction(m: nat, k: nat, n: nat)
    requires m > 0 && 1 <= k <= n
    ensures |Burst(m, k)| <= |Burst(m, n)|
    ensures Burst(m, n)[|Burst(m, k)| - 1] == if k % m == 0 then Step else Sleep
  {
    BurstPrefix(m, k, n);
    BurstLastAction(m, k);
  }

  lemma {:induction false} BurstSplit(m: nat, k: nat, last: nat)
    requires m > 0 && 1 <= k <= last
    ensures BurstFrom(m, k, last) == BurstFrom(m, k, last - 1) + (if last % m != 0 then [Step, Sleep] else [Step])
    decreases last - k
  {
    if k < last {
      BurstSplit(m, k + 1, last);
      var head: seq<Action> := if k % m != 0 then [Step, Sleep] else [Step];
      var tail: seq<Action> := if last % m != 0 then [Step, Sleep] else [Step];
      assert head + (BurstFrom(m, k + 1, last - 1) + tail) == (head + BurstFrom(m, k + 1, last - 1)) + tail;
    } else {
      assert BurstFrom(m, k + 1, last) == [];
    }
  }

  /** One pass of the outer `while (1)`: whether the stop flag is set when
      it is checked, the send buffer size `getsockopt` reports, and how many
      steps the `do … while` runs beyond the first because the delay queue
      still holds a zero-delay task. */
  datatype Round = Round(stop: bool, sendBuffer: nat, extraSteps: nat)

  /** The first `i` rounds run a burst each: none of them sees the flag. */
  predicate RunsBursts(rounds: seq<Round>, i: nat)
  {
    i <= |rounds| && forall j | 0 <= j < i :: !rounds[j].stop
  }

  /** Steps the rounds take: each runs its `do … while` body at least once. */
  function StepsOf(rounds: seq<Round>): (n: nat)
  {
    if rounds == [] then 0 else rounds[0].extraSteps + 1 + StepsOf(rounds[1..])
  }

  /** Sleeps the rounds take when each burst restarts its counter at 1. */
  function SleepsOf(rounds: seq<Round>): (n: nat)
    requires forall j | 0 <= j < |rounds| :: BurstBudget(rounds[j].sendBuffer) > 0
  {
    if rounds == [] then 0
    else
      var n, m := rounds[0].extraSteps + 1, BurstBudget(rounds[0].sendBuffer);
      QuotientAtMost(n, m);
      n - n / m + SleepsOf(rounds[1..])
  }

  /** `doEventLoop` over a sequence of rounds; running out of rounds ends the
      model, a set flag ends the loop before the next burst, and a send
      buffer smaller than one payload is a division by zero. */
  function EventLoop(rounds: seq<Round>): (r: Outcome<seq<Action>>)
    ensures r.Unsafe? <==> exists i | 0 <= i < |rounds| ::
              RunsBursts(rounds, i) && !rounds[i].stop && BurstBudget(rounds[i].sendBuffer) == 0
    ensures r.Unsafe? ==> r.fault.PacingDivisionByZero? && r.fault.sendBuffer < MaxPayload
  {
    if rounds == [] then Ok([])
    else if rounds[0].stop then Ok([])
    else
      var m := BurstBudget(rounds[0].sendBuffer);
      if m == 0 then
        assert RunsBursts(rounds, 0);
        Unsafe(PacingDivisionByZero(rounds[0].sendBuffer))
      else
        match EventLoop(rounds[1..])
        case Unsafe(f) =>
          var i :| 0 <= i < |rounds[1..]| && RunsBursts(rounds[1..], i) && !rounds[1..][i].stop
                   && BurstBudget(rounds[1..][i].sendBuffer) == 0;
          assert RunsBursts(rounds, i + 1);
          Unsafe(f)
        case Ok(rest) =>
          assert forall i | 1 <= i < |rounds| && RunsBursts(rounds, i) :: RunsBursts(rounds[1..], i - 1);
          Ok(Burst(m, rounds[0].extraSteps + 1) + rest)
  }

  /** A round that runs a burst puts it in front of what the later rounds
      do. */
  lemma EventLoopCons(rounds: seq<Round>)
    requires |rounds| > 0 && !rounds[0].stop && BurstBudget(rounds[0].sendBuffer) > 0
    requires EventLoop(rounds[1..]).Ok?
    ensures EventLoop(rounds) ==
            Ok(Burst(BurstBudget(rounds[0].sendBuffer), rounds[0].extraSteps + 1) + EventLoop(rounds[1..]).value)
  {
  }

  /** When the first `i` rounds run and round `i` sees the flag, the loop
      performs exactly those rounds' steps and sleeps, each burst counting
      from 1 again; nothing after the flag matters. */
  lemma {:induction false} StopEndsLoop(rounds: seq<Round>, i: nat)
    requires RunsBursts(rounds, i) && i < |rounds| && rounds[i].stop
    requires forall j | 0 <= j < i :: BurstBudget(rounds[j].sendBuffer) > 0
    ensures EventLoop(rounds).Ok?
    ensures EventLoop(rounds) == EventLoop(rounds[..i + 1])
    ensures CountSteps(EventLoop(rounds).value) == StepsOf(rounds[..i])
    ensures CountSleeps(EventLoop(rounds).value) == SleepsOf(rounds[..i])
    decreases i
  {
    if i > 0 {
      var m := BurstBudget(rounds[0].sendBuffer);
      var n := rounds[0].extraSteps + 1;
      assert rounds[1..][..i] == rounds[..i + 1][1..];
      assert rounds[..i][1..] == rounds[1..][..i - 1];
      StopEndsLoop(rounds[1..], i - 1);
      EventLoopCons(rounds);
      EventLoopCons(rounds[..i + 1]);
      BurstCounts(m, n);
      CountsOfConcat(Burst(m, n), EventLoop(rounds[1..]).value);
    }
  }

  /** `strncmp(message, "liveMedia", 9) == 0` on C strings: the comparison
      stops at the first difference, at a terminating NUL or after `n`
      characters, and a string's end reads as NUL. */
  function CharAt(s: string, i: nat): (c: char)
  {
    if i < |s| then s[i] else '\0'
  }

  function StrNEqual(a: string, b: string, n: nat, i: nat): (equal: bool)
    decreases n - i
  {
    i >= n || (CharAt(a, i) == CharAt(b, i) && (CharAt(a, i) == '\0' || StrNEqual(a, b, n, i + 1)))
  }

  const LibraryPrefix: string := "liveMedia"

  /** A message is a C string: it holds no NUL. */
  predicate IsCString(s: string)
  {
    forall i | 0 <= i < |s| :: s[i] != '\0'
  }

  /** The filter of `SingleStep`: a message is printed when it is non-empty
      and `strncmp` against "liveMedia" over 9 characters is not 0. */
  function ShouldPrint(message: string): (r: bool)
    ensures r ==> |message| > 0
    ensures |message| > 0 && message[0] != 'l' ==> r
  {
    |message| > 0 && !StrNEqual(message, LibraryPrefix, 9, 0)
  }

  /** Comparing from `i` on matches exactly when the rest of the prefix
      matches character by character. */
  lemma {:induction false} StrNEqualPrefix(message: string, i: nat)
    requires IsCString(message) && i <= 9
    requires |message| >= i && message[..i] == LibraryPrefix[..i]
    ensures StrNEqual(message, LibraryPrefix, 9, i) <==> |message| >= 9 && message[..9] == LibraryPrefix
    decreases 9 - i
  {
    if i < 9 {
      if |message| > i && message[i] == LibraryPrefix[i] {
        assert message[..i + 1] == LibraryPrefix[..i + 1];
        StrNEqualPrefix(message, i + 1);
      } else if |message| >= 9 {
        assert message[..9][i] != LibraryPrefix[i];
      }
    } else {
      assert message[..9] == LibraryPrefix;
    }
  }

  /** The filter prints exactly the non-empty messages that do not start
      with "liveMedia". */
  lemma ShouldPrintIff(message: string)
    requires IsCString(message)
    ensures ShouldPrint(message) <==> |message| > 0 && !(|message| >= 9 && message[..9] == LibraryPrefix)
  {
    StrNEqualPrefix(message, 0);
  }
}
